=== FILE: README.md ===
# Bard-rs session engine in Dafny

A model of the conversation engine of Bard-rs, a terminal client for
Google's Gemini (formerly Bard) chat service. It covers the two clients
the repository carries: the current Gemini client (`src/main.rs`) and the
legacy Bard client (`src/gpt_bard.rs`). With HTTP taken away, one
conversational turn is a pure computation:

- **Request** (`request.dfy`, `percent.dfy`, `json_text.dfy`): the message
  and the three continuity tokens (conversation id, response id, choice
  id) are put in `[[message], null, [cid, rid, chid]]`. That is serialised
  as JSON, wrapped as `[null, <that text>]` and serialised again. The
  result and the `SNlM0e` anti-forgery token are percent-encoded into the
  body `f.req=…&at=…&`. The URL carries the build label `bl`, the request
  counter `_reqid` and `rt=c`, appended by the form serialiser.
- **Envelope** (`envelope.dfy`, `fallback.dfy`): line 3 of the reply is
  an array of arrays. Its element `[0][2]` is a string holding the actual
  document, which is a JSON array. Fields sit at fixed positions that
  differ between the two clients. When the current client finds no
  alternative choice, it searches the document for an `rc_` choice id.
- **Session** (`session.dfy`): the record of request counter, `SNlM0e`
  token and continuity tokens. It covers:
  - creation from the start page, with the CAPTCHA check and the token
    scrape;
  - the all-or-nothing commit after a reply;
  - `reset`.
- **Terminal helpers** (`cli.dfy`, `ansi.dfy`): the history file name
  taken from the first input, where that file is placed, the progress
  style menu, and `strip_ansi_codes`.

Supporting modules:
- `base.dfy`: options, results, splitting.
- `decimal.dfy`: decimal text of naturals.
- `utf8.dfy`: UTF-8, which both percent-encoders work on.
- `json.dfy`: the `serde_json::Value` datatype and its total indexing.
- `json_roundtrip.dfy`: the proof that parsing undoes serialising.

JSON values are `Null | Bool | Num | Str | Arr | Obj`. Numbers are exact
decimals `mantissa * 10^exponent`. Indexing a value with `[i]` is total
and gives `Null` off an array or out of range, as `serde_json` does.
Indexing the top-level `Vec<Value>`, taking `lines[3]` and calling
`as_array().unwrap()` panic in the code, so here they are preconditions
(`HasLineThree`, `Decodable`, `Answerable`).

Facts about the code that the model keeps:
- A reply with fewer than four lines panics at `lines[3]` rather than
  reporting an error. The model makes four lines a precondition.
- The `rc_` search looks only at `doc[i][j]` and `doc[i][j][k]`, not at
  every leaf of the document.
- The commit accepts any strings, including empty ones, so the three
  tokens need not be all empty or all non-empty.
- `form_urlencoded::Serializer::new(target)` counts a non-empty target as
  already holding pairs, so the request URL has `&` right after the `?`:
  `…/StreamGenerate?&bl=…&_reqid=…&rt=c`.
- The `SNlM0e` pattern `SNlM0e":"(.*?)"` cannot match across a line break,
  because `.` does not match `\n`. The token is therefore the group of the
  leftmost marker whose closing quote comes before any line break, not
  simply the text up to the next quote.
- A page mentioning `CAPTCHA` and a page without a token both make
  `Chatbot::new` panic. The model returns `Err(Blocked)` and
  `Err(TokenMissing)`. Only the current client checks for `CAPTCHA`.

## Model

| member | source | states |
|---|---|---|
| Request.MessageStruct | src/main.rs:152-156 | the payload is a three-element array: `[message]` first, `null` second, and the conversation, response and choice ids in that order third |
| Request.FormDataRoundTrip | src/gpt_bard.rs:96-101 | parsing the form data as `[null, S]` and then parsing `S` gives back exactly the message and the three continuity tokens it was built from |
| Request.BodyRoundTrip | src/main.rs:152-163 | reading the body as two `&`-terminated fields `f.req` and `at` and percent-decoding each recovers the message, the continuity tokens and the `SNlM0e` token unchanged |
| Request.BodyFields | src/main.rs:159-163 | the body `f.req=<f>&at=<a>&` splits at `&` into exactly the two fields and an empty tail when neither value holds `&` |
| Request.RequestUrlText | src/main.rs:165-170 | the URL is the endpoint followed by `&bl=<label>&_reqid=<decimal counter>&rt=c`, in that order and with nothing escaped; the first pair also follows an `&` because the serialiser's target is not empty |
| Request.LabelVerbatim | src/gpt_bard.rs:109-113 | the build label consists of unreserved characters only, so both encoders leave it unchanged |
| Request.RequestHeaders | src/main.rs:172-184 | three headers in order: `Content-Type` is `application/x-www-form-urlencoded;charset=UTF-8`, `Origin` is the host, `Referer` is the host followed by `/`; the endpoint lies under the origin |
| Request.TurnRequest | src/main.rs:151-194 | the request goes to the endpoint followed by `&bl=<label>&_reqid=<counter>&rt=c`, carries the three headers, and its body is read back to exactly the message, the continuity tokens and `SNlM0e` |
| Percent.UrlEncode | src/main.rs:159-163 | the encoded text consists of unreserved characters, `%` and upper-case hexadecimal digits only, and never holds `&`, `=` or `+` |
| Percent.UrlDecodeEncode | src/main.rs:159-163 | percent-decoding the encoding of any text, and reading the bytes back as UTF-8, gives the text back |
| Percent.UrlEncodeUnreserved | src/gpt_bard.rs:110 | text made only of unreserved characters is encoded as itself |
| Percent.FormDecodeEncode | src/main.rs:165-170 | the form reading (`+` is a space, `%XX` a byte) of the form encoding of any text gives the text back |
| Percent.FormEncodeSafe | src/main.rs:166-168 | text made only of form-safe characters is form-encoded as itself |
| Percent.SerializeVerbatim | src/main.rs:165-170 | when no key or value needs escaping, the serialiser writes the target followed by the `key=value` pairs, each preceded by `&` except a first pair written when the text is no longer than the start position (never the case for the non-empty endpoint with start 0 that `Serializer::new` uses) |
| Utf8.DecodeEncode | src/main.rs:159-163 | decoding the UTF-8 bytes of any text gives the text back |
| JsonRoundTrip.ParseSerialize | src/main.rs:152-157 | parsing the serialised text of any JSON value gives that value back |
| Envelope.ChatData | src/main.rs:204-208 | the chat data exists exactly when there is a first row with more than two entries, and it is that row's third entry |
| Envelope.AsArrayOfArrays | src/main.rs:204 | a line is accepted exactly when it parses to an array whose every element is an array, and then yields exactly those rows |
| Envelope.ArraysRoundTrip | src/main.rs:204 | every array of arrays, serialised, is accepted and read back as the same rows |
| Envelope.OpenServedDocument | src/main.rs:201-214 | a reply whose fourth line is the serialised `[[a, b, S]]`, with `S` the serialised document, opens to exactly that document |
| Envelope.Choice | src/main.rs:229-234 | a choice object answers `id` and `content` with the two values it was built from |
| Envelope.CurrentChoices | src/main.rs:224-235 | the first candidate is dropped; there are `|doc[4]| - 1` choices in order, and choice `k` has id `doc[4][k+1][0]` and content `doc[4][k+1][1][0]` |
| Envelope.ChoicesOf | src/main.rs:224-235 | every candidate maps to one choice, in order, with id `c[0]` and content `c[1][0]` or `c[1]` |
| Envelope.Location | src/main.rs:240-249 | the location object holds `address` exactly when `loc[0]` is a string and `place_type` exactly when `loc[1]` is a string, each with that string, and has exactly one member per string present, so no other member and no second copy of a key |
| Envelope.CurrentResults | src/main.rs:218-249 | the current result map always holds content `doc[4][0][1][0]`, conversation id `doc[1][0]`, response id `doc[1][1]`, text query `doc[2][0][0]` and the choices; it never holds `factualityQueries`; it holds `location` exactly when `doc` has an eighth element, and no other key |
| Envelope.LegacyResults | src/gpt_bard.rs:155-173 | the legacy result map holds exactly content `doc[0][0]`, conversation id `doc[1][0]`, response id `doc[1][1]`, `factualityQueries` `doc[3]`, text query `doc[2][0]` and the choices |
| Envelope.LegacyChoices | src/gpt_bard.rs:161-171 | every candidate is kept: there are `|doc[4]|` choices in order, and choice `k` has id `doc[4][k][0]` and content `doc[4][k][1]` |
| Envelope.CurrentPrimaryChoice | src/main.rs:251-259 | the current client's primary choice id is `doc[4][1][0]` when that is a string, and absent otherwise |
| Envelope.LegacyPrimaryChoice | src/gpt_bard.rs:177-182 | the legacy choice id is `doc[4][0][0]` when that is a string, and absent otherwise, with no second chance |
| Envelope.FallbackOnlyWithoutPrimary | src/main.rs:261-263 | a string at `doc[4][1][0]` is always the choice id; only without one does the `rc_` search decide |
| Fallback.ScanInner | src/main.rs:272-280 | the innermost loop finds the first `doc[i][j][k]` from `k` on that starts with `rc_`, or reports that there is none |
| Fallback.ScanRow | src/main.rs:266-282 | the middle loop finds the earliest reachable `rc_` string in row `i` from `j` on, testing strings and descending one level into arrays |
| Fallback.ScanDoc | src/main.rs:264-284 | the outer loop finds the earliest reachable `rc_` string from row `i` on, skipping rows that are not arrays |
| Fallback.RcChoiceId | src/main.rs:263-285 | the search yields nothing exactly when no `doc[i][j]` or `doc[i][j][k]` string starts with `rc_`; otherwise it yields the first such string in (i, j, k) order |
| Session.Token | src/main.rs:104-109 | a token exists exactly when the pattern matches somewhere; it is the group of the leftmost match and holds no quote and no line break |
| Session.TokenOfPage | src/gpt_bard.rs:76-80 | a page that starts with the marker, a token free of quotes and line breaks, and a quote, yields exactly that token |
| Session.Create | src/main.rs:96-120 | creation fails as blocked exactly for the current client on a page mentioning `CAPTCHA`, fails for a missing token exactly when there is no match, and otherwise starts with the given counter, the scraped token and empty continuity tokens |
| Session.Commit | src/main.rs:287-297 | the counter advances by exactly 100000 exactly when all three ids are strings, and then the tokens are exactly those ids; otherwise the session is unchanged; `SNlM0e` never changes |
| Session.Receive | src/main.rs:201-214 | a reply fails exactly when the inner string is not a JSON array as the model parses JSON, which has no number range and no depth limit (see "Left out"); a reply without chat data, or whose chat data is not a string, gives an empty map and the unchanged session; a document gives the layout's result map; the token never changes and the counter stays or advances by 100000 |
| Session.CurrentCommit | src/main.rs:251-297 | the current client commits exactly when `doc[1][0]` and `doc[1][1]` are strings and a choice id (primary or `rc_`) is found; it then holds those three, and otherwise nothing changes |
| Session.LegacyCommit | src/gpt_bard.rs:175-193 | the legacy client commits exactly when `doc[1][0]`, `doc[1][1]` and `doc[4][0][0]` are all strings; it then holds those three, and otherwise nothing changes |
| Session.Ask | src/main.rs:151-199 | the request of a turn goes to the endpoint with `&bl=<label>&_reqid=<session counter>&rt=c` and carries the message, the session's continuity tokens and `SNlM0e` so that they are read back unchanged; the session moves on only as the reply dictates |
| Session.Reset | src/main.rs:310-314 | reset empties the three continuity tokens and keeps the counter and `SNlM0e` |
| Session.ResetIsFresh | src/main.rs:113-120 | a reset session equals the session created from a page that yields the same token, with the same counter |
| Cli.Trim | src/main.rs:407 | the trimmed line has no whitespace at either end and is the line with only whitespace cut from both ends |
| Cli.TrimPadded | src/main.rs:407 | trimming a text that has no whitespace at its ends, padded with whitespace on both sides, gives that text |
| Cli.KeepChars | src/main.rs:414 | the filter keeps only ASCII alphanumeric and whitespace characters, keeps a text of such characters whole, and removes a text of other characters entirely (with Cli.KeepCharsConcat this fixes the filter character by character) |
| Cli.KeepCharsConcat | src/main.rs:414 | the filter works character by character: it distributes over concatenation |
| Cli.FoldChars | src/main.rs:416-417 | every character is lower-cased and a space becomes `_`, position by position |
| Cli.Stem | src/main.rs:411-417 | the stem has at most ten characters, none of them `/`, each an ASCII digit, an ASCII lower-case letter, `_` or whitespace other than a space |
| Cli.WordStem | src/main.rs:411-417 | a lower-case word of letters and digits is its own stem, cut to ten characters |
| Cli.Decorated | src/main.rs:422 | `gemini_<stem>.md` starts with `gemini`, ends with `.md`, has no `/`, is at most 20 characters and is never `gemini.md` |
| Cli.FileName | src/main.rs:419-423 | the history file name starts with `gemini`, ends with `.md`, has no `/`, and is `gemini.md` exactly when the stem is empty |
| Cli.Push | src/main.rs:427-431 | pushing an absolute component replaces the path; pushing any other keeps the path as a prefix and ends with the component |
| Cli.HistoryFileAsWritten | src/main.rs:426-434 | as written, there is a history file exactly when the history setting is not blank |
| Cli.AsWrittenIgnoresDirectory | src/main.rs:428-431 | as written, a history directory not ending in `/` is dropped and the file is placed at `/` followed by the name |
| Cli.AsWrittenExample | src/main.rs:426-431 | as written, the setting `notes` puts the history in `/gemini.md`, which is not under `notes` |
| Cli.HistoryFile | src/main.rs:426-434 | as intended, there is a history file exactly when the history setting is not blank |
| Cli.HistoryFileInside | src/main.rs:426-434 | as intended, the history file starts with the directory, its last component is the file name, and it is at most one `/` longer than directory and name together |
| Cli.ParseUsize | src/main.rs:477 | a parsed number fits in 64 bits and comes from a text starting with a digit or `+` |
| Cli.ParseUsizeText | src/main.rs:477 | the decimal text of any 64-bit number, with or without `+`, parses to that number |
| Cli.MenuNumberPadded | src/main.rs:477 | a number typed with whitespace around it is read as that number |
| Cli.SelectStyle | src/main.rs:477-487 | a style is picked exactly when the number read is between 1 and the number of styles, and it is the style at that number counted from 1 |
| Cli.MenuStyle | src/main.rs:452-487 | on the client's menu of six styles, a reply picks a style exactly when it reads as 1 to 6 |
| Cli.SelectStyleByNumber | src/main.rs:477-486 | typing the number `k` of a listed style, with whitespace around it, picks style `k` |
| Cli.SelectStyleRejects | src/main.rs:477-480 | a reply holding a character that is not a digit, other than a leading `+`, picks nothing |
| Ansi.SgrLength | src/main.rs:350 | a match is ESC, `[`, parameter characters and `m`, and the parameter run is taken whole |
| Ansi.StripAnsi | src/main.rs:349-352 | stripping never lengthens a text, leaves a text without ESC unchanged, and keeps only characters of the text; Ansi.NoMatchUnchanged adds that nothing is removed where no match starts |
| Ansi.StripSgr | src/main.rs:349-352 | an escape sequence in front of a text is removed and nothing else changes |
| Ansi.StripPlain | src/main.rs:349-352 | text without ESC in front of the rest is kept as it is |
| Ansi.Uncolour | src/main.rs:349-352 | a plain text between a colour sequence and a reset sequence is recovered exactly |
| Ansi.NoMatchUnchanged | src/main.rs:349-352 | a text where no `\x1b\[[0-9;]*m` match starts anywhere is left unchanged, stray ESC characters included |
| Ansi.EraseLineKept | src/main.rs:349-352 | the erase-line sequence `ESC [2K`, which the progress display writes (src/main.rs:136), is not a match and survives stripping, in front of any text |
| Ansi.NotIdempotent | src/main.rs:349-352 | one pass is not always enough: removing an inner sequence can join an outer one, which a second pass removes |

## Findings

| source | as written | input that shows it | evidently intended | confidence | as-written member | corrected member |
|---|---|---|---|---|---|---|
| src/main.rs:426-431 | `path.push("/")` on a history directory that does not end in `/`; on Unix an absolute component replaces the whole path | history setting `notes`, first input empty: the file is `/gemini.md` | the file `notes/gemini.md` inside the history directory | high, not executed | Cli.HistoryFileAsWritten, Cli.AsWrittenExample, Cli.AsWrittenIgnoresDirectory | Cli.HistoryFile, Cli.HistoryFileInside |

## Left out

- HTTP transport: TLS, the proxy, the cookie and user-agent headers, and the GET of the start page. The start page and the reply text are parameters.
- Randomness: the request counter drawn from `100000..999999` is a parameter constrained to that range. The progress-bar positions are not modelled.
- The regular-expression engine: the `SNlM0e` and ANSI patterns are stated directly as scans.
- JsonText.Parse: `serde_json` refuses input nested more than 128 levels deep. The model has no depth limit, so an inner document that deep is read here, while the program's `ask` fails at src/main.rs:214 and src/gpt_bard.rs:153, and a line 3 that deep is "chat data not found" there.
- JsonText.Parse: parsed objects keep their members in text order, duplicates included, while `serde_json::Map` sorts keys and keeps the last of duplicate keys. A value copied out of the document, such as `factualityQueries`, can therefore differ when it holds an object.
- JsonText.Parse: `serde_json` refuses a number whose value overflows `f64`, such as `1e400`, with a number-out-of-range error. The model reads every number as an exact decimal and never fails on its size. An inner document holding such a number therefore makes the program's `ask` fail at src/main.rs:214 and src/gpt_bard.rs:153, and a line 3 holding one gives the empty map at src/main.rs:204, where the model's Session.Receive decodes the document.
- Session.Receive: because of the two parser limits above, "fails exactly when the inner string is not a JSON array" holds of the model's parser, not of `serde_json` on numbers beyond `f64` or nesting deeper than 128 levels.
- The internals of `serde_json`: numbers are exact decimals, not `f64`, and their text is the model's own, not serde's byte-exact formatting. Objects are written with members in the order given; the maps built here are listed in key order, as `serde_json::Map` keeps them.
- The internals of `urlencoding` and `form_urlencoded`: they are modelled as their own percent-encoders on UTF-8 bytes.
- Session.Commit: the 64-bit request counter is an unbounded natural, so its wrap-around after about 1.8e14 turns is not modelled.
- Cli.KeepChars: letters and digits are restricted to ASCII (`Cli.Kept`), whereas `char::is_alphanumeric` also keeps every other Unicode letter and digit, such as `É`.
- Cli.Stem: because of that restriction, the program can also put non-ASCII letters and digits in the stem (`gemini_É.md`), which the model's stem never holds. Case folding is ASCII only in both, as `to_ascii_lowercase` is.
- Cli.Push: only Unix path rules are modelled; Windows prefixes and separators are not.
- The REPL: the rustyline loop, prompts, colours, the `!exit`/`!reset`/`!show` commands and the progress bar are terminal I/O. `append_to_file` and the `.env`/environment lookup are file and environment I/O.
- The legacy client's history file `ai.md`, its OpenAI relay, its stdin thread and channel, and its Ctrl-C flag are I/O and concurrency.
- The `Result` of `serde_json::from_str` for the inner string is an error value only; its message is not modelled (`AskError`).

=== FILE: ansi.dfy ===
/** `strip_ansi_codes` in `src/main.rs`: every SGR escape sequence, ESC `[`
    then digits and semicolons then `m`, is cut out of the text. Matches
    are taken left to right and never overlap, as `Regex::replace_all`
    takes them. */
module Ansi {
  import opened Base
  import opened Decimal

  const Esc: char := '\U{1B}'

  /** A parameter character of the pattern, `[0-9;]`. */
  predicate IsParam(c: char) {
    IsDigit(c) || c == ';'
  }

  predicate AllParams(s: string) {
    forall i :: 0 <= i < |s| ==> IsParam(s[i])
  }

  /** Length of the run of parameter characters at the start of `s`. */
  function ParamRun(s: string, i: nat): (n: nat)
    requires i <= |s|
    ensures i <= n <= |s|
    ensures forall m :: i <= m < n ==> IsParam(s[m])
    ensures n < |s| ==> !IsParam(s[n])
    decreases |s| - i
  {
    if i < |s| && IsParam(s[i]) then ParamRun(s, i + 1) else i
  }

  /** Length of the escape sequence the pattern matches at the start of
      `s`, if it matches there. Since `m` is not a parameter character,
      the run of parameters is taken whole. */
  function SgrLength(s: string): (r: Option<nat>)
    ensures r.Some? ==> 3 <= r.value <= |s|
    ensures r.Some? ==> s[0] == Esc && s[1] == '[' && s[r.value - 1] == 'm' &&
                        forall m :: 2 <= m < r.value - 1 ==> IsParam(s[m])
  {
    if 2 <= |s| && s[0] == Esc && s[1] == '[' then
      var e := ParamRun(s, 2);
      if e < |s| && s[e] == 'm' then Some(e + 1) else None
    else None
  }

  /** The text with every match removed, scanning left to right and
      resuming after each match. */
  function StripAnsi(s: string): (r: string)
    ensures |r| <= |s|
    ensures Esc !in s ==> r == s
    ensures forall c :: c in r ==> c in s
    decreases |s|
  {
    if |s| == 0 then ""
    else
      match SgrLength(s)
      case Some(n) =>
        assert s == s[..n] + s[n..];
        StripAnsi(s[n..])
      case None =>
        assert s == [s[0]] + s[1..];
        [s[0]] + StripAnsi(s[1..])
  }

  /** The escape sequence that sets graphic rendition `params`. */
  function Sgr(params: string): string {
    [Esc, '['] + params + "m"
  }

  /** A sequence in front of a text is removed and nothing else is. */
  lemma StripSgr(params: string, rest: string)
    requires AllParams(params)
    ensures StripAnsi(Sgr(params) + rest) == StripAnsi(rest)
  {
    var s := Sgr(params) + rest;
    var k := |params| + 3;
    assert forall m :: 2 <= m < 2 + |params| ==> s[m] == params[m - 2];
    assert s[2 + |params|] == 'm';
    assert ParamRun(s, 2) == 2 + |params|;
    assert SgrLength(s) == Some(k);
    assert s[k..] == rest;
  }

  /** Plain text in front of the rest is kept as it is. */
  lemma {:induction false} StripPlain(text: string, rest: string)
    requires Esc !in text
    ensures StripAnsi(text + rest) == text + StripAnsi(rest)
    decreases |text|
  {
    if |text| > 0 {
      var s := text + rest;
      assert s[0] == text[0] && s[0] != Esc;
      assert SgrLength(s).None?;
      assert StripAnsi(s) == [text[0]] + StripAnsi(s[1..]);
      assert s[1..] == text[1..] + rest;
      assert Esc !in text[1..] by { assert text == [text[0]] + text[1..]; }
      StripPlain(text[1..], rest);
      Rejoin(text);
      Assoc([text[0]], text[1..], StripAnsi(rest));
    } else {
      assert text + rest == rest;
    }
  }

  /** Where no match starts, nothing is removed: an ESC that does not open
      an SGR sequence is kept like any other character. */
  lemma {:induction false} NoMatchUnchanged(s: string)
    requires forall i :: 0 <= i < |s| ==> SgrLength(s[i..]).None?
    ensures StripAnsi(s) == s
    decreases |s|
  {
    if |s| > 0 {
      assert s[0..] == s;
      forall i | 0 <= i < |s[1..]|
        ensures SgrLength(s[1..][i..]).None?
      {
        assert s[1..][i..] == s[i + 1..];
      }
      NoMatchUnchanged(s[1..]);
      Rejoin(s);
    }
  }

  /** The erase-line sequence the progress display writes, ESC `[2K`, is
      not matched (it ends in `K`, not `m`) and survives stripping. */
  lemma EraseLineKept(rest: string)
    ensures StripAnsi([Esc, '[', '2', 'K'] + rest) == [Esc, '[', '2', 'K'] + StripAnsi(rest)
  {
    var s := [Esc, '[', '2', 'K'] + rest;
    assert ParamRun(s, 3) == 3;
    assert ParamRun(s, 2) == 3;
    assert SgrLength(s).None?;
    assert StripAnsi(s) == [Esc] + StripAnsi(s[1..]);
    assert s[1..] == "[2K" + rest;
    StripPlain("[2K", rest);
    assert [Esc, '[', '2', 'K'] == [Esc] + "[2K";
    Assoc([Esc], "[2K", StripAnsi(rest));
  }

  /** Colouring a plain text and resetting the colour afterwards is undone
      exactly. */
  lemma Uncolour(params: string, text: string, reset: string)
    requires AllParams(params) && AllParams(reset) && Esc !in text
    ensures StripAnsi(Sgr(params) + text + Sgr(reset)) == text
  {
    assert Sgr(params) + text + Sgr(reset) == Sgr(params) + (text + Sgr(reset));
    StripSgr(params, text + Sgr(reset));
    StripPlain(text, Sgr(reset));
    StripSgr(reset, "");
    assert Sgr(reset) + "" == Sgr(reset);
    assert StripAnsi("") == "";
  }

  /** The inner sequence `ESC [0m` goes, leaving the `m` after it. */
  lemma InnerStripped()
    ensures StripAnsi([Esc, '[', '0', 'm', 'm']) == "m"
  {
    var u: string := [Esc, '[', '0', 'm', 'm'];
    assert ParamRun(u, 3) == 3;
    assert ParamRun(u, 2) == 3;
    assert SgrLength(u) == Some(4);
    assert u[4..] == "m";
    assert StripAnsi("m") == "m";
  }

  /** A bare `ESC [m` is itself a match. */
  lemma BareStripped()
    ensures StripAnsi([Esc, '[', 'm']) == ""
  {
    var t: string := [Esc, '[', 'm'];
    assert ParamRun(t, 2) == 2;
    assert SgrLength(t) == Some(3);
    assert t[3..] == "";
  }

  /** Stripping once need not be enough: removing an inner sequence can
      bring an outer one together. */
  lemma NotIdempotent()
    ensures StripAnsi([Esc, '[', Esc, '[', '0', 'm', 'm']) == [Esc, '[', 'm']
    ensures StripAnsi([Esc, '[', 'm']) == ""
  {
    var s: string := [Esc, '[', Esc, '[', '0', 'm', 'm'];
    var v: string := ['[', Esc, '[', '0', 'm', 'm'];
    InnerStripped();
    assert v[1..] == [Esc, '[', '0', 'm', 'm'];
    assert StripAnsi(v) == "[m";
    assert ParamRun(s, 2) == 2;
    assert SgrLength(s).None?;
    assert s[1..] == v;
    assert StripAnsi(s) == [Esc] + StripAnsi(v);
    BareStripped();
  }
}

=== FILE: base.dfy ===
/** Small shared vocabulary: optional values, results, bytes and the string
    scans (split, prefix, substring) that the session engine relies on. */
module Base {

  datatype Option<+T> = None | Some(value: T)

  datatype Result<+T, +E> = Ok(value: T) | Err(error: E)

  /** One octet of a UTF-8 or percent-encoded text. */
  newtype byte = x: int | 0 <= x < 256

  /** Value of a hexadecimal digit of either case. */
  function HexValue(c: char): (r: Option<nat>)
    ensures r.Some? ==> r.value < 16
  {
    if '0' <= c <= '9' then Some(c as int - '0' as int)
    else if 'a' <= c <= 'f' then Some(c as int - 'a' as int + 10)
    else if 'A' <= c <= 'F' then Some(c as int - 'A' as int + 10)
    else None
  }

  predicate StartsWith(s: string, prefix: string) {
    |prefix| <= |s| && s[..|prefix|] == prefix
  }

  /** `s.contains(needle)`: the needle occurs at some offset of `s`. */
  predicate Contains(s: string, needle: string) {
    exists i :: 0 <= i <= |s| - |needle| && OccursAt(s, needle, i)
  }

  predicate OccursAt(s: string, needle: string, i: int) {
    0 <= i <= |s| - |needle| && s[i..i + |needle|] == needle
  }

  /** `s.split(sep)` on one character: the pieces between separators, in
      order; there is always at least one piece. */
  function Split(s: string, sep: char): (pieces: seq<string>)
    ensures |pieces| >= 1
    ensures sep !in s ==> pieces == [s]
    decreases |s|
  {
    if sep !in s then [s]
    else
      var i := IndexOf(s, sep);
      [s[..i]] + Split(s[i + 1..], sep)
  }

  /** Offset of the first occurrence of `c` in `s`. */
  function IndexOf(s: string, c: char): (i: nat)
    requires c in s
    ensures i < |s| && s[i] == c && c !in s[..i]
  {
    if s[0] == c then 0 else 1 + IndexOf(s[1..], c)
  }

  /** Splitting a text that is a separator-free piece, the separator and a
      remainder yields that piece followed by the remainder's pieces. */
  lemma SplitCons(a: string, sep: char, b: string)
    requires sep !in a
    ensures Split(a + [sep] + b, sep) == [a] + Split(b, sep)
  {
    var s := a + [sep] + b;
    assert s[|a|] == sep;
    assert sep in s;
    var i := IndexOf(s, sep);
    assert s[..i + 1][|a|] == sep;
    assert s[..i] == a;
    assert s[i + 1..] == b;
  }

  /** Concatenation is associative; longer regroupings are chains of it. */
  lemma Assoc<T>(a: seq<T>, b: seq<T>, c: seq<T>)
    ensures a + b + c == a + (b + c)
  {
  }

  /** A non-empty sequence is its head followed by its tail. */
  lemma Rejoin<T>(xs: seq<T>)
    requires |xs| > 0
    ensures [xs[0]] + xs[1..] == xs
  {
  }
}

=== FILE: cli.dfy ===
/** The pure helpers inside the REPL of `src/main.rs`: trimming a line,
    naming the history file after the first input, placing that file in the
    history directory, and choosing a progress-bar style from the settings
    menu. Paths follow the Unix rules of Rust's `PathBuf`. */
module Cli {
  import opened Base
  import opened Decimal

  // ---------------------------------------------------------------------
  // `str::trim`.

  /** Unicode `White_Space`, the set `char::is_whitespace` tests. */
  predicate IsWhitespace(c: char) {
    c == ' ' || '\t' <= c <= '\r' || c == '\U{85}' || c == '\U{A0}' || c == '\U{1680}' ||
    '\U{2000}' <= c <= '\U{200A}' || c == '\U{2028}' || c == '\U{2029}' || c == '\U{202F}' ||
    c == '\U{205F}' || c == '\U{3000}'
  }

  predicate AllWhitespace(s: string) {
    forall i :: 0 <= i < |s| ==> IsWhitespace(s[i])
  }

  /** Neither end is whitespace. */
  predicate Trimmed(s: string) {
    |s| == 0 || (!IsWhitespace(s[0]) && !IsWhitespace(s[|s| - 1]))
  }

  /** End of the whitespace run that starts at `i`. */
  function LeadEnd(s: string, i: nat): (r: nat)
    requires i <= |s|
    ensures i <= r <= |s|
    ensures forall m :: i <= m < r ==> IsWhitespace(s[m])
    ensures r < |s| ==> !IsWhitespace(s[r])
    decreases |s| - i
  {
    if i < |s| && IsWhitespace(s[i]) then LeadEnd(s, i + 1) else i
  }

  /** Start of the whitespace run that ends at `j`, going no lower than
      `lo`. */
  function TailStart(s: string, lo: nat, j: nat): (r: nat)
    requires lo <= j <= |s|
    ensures lo <= r <= j
    ensures forall m :: r <= m < j ==> IsWhitespace(s[m])
    ensures r > lo ==> !IsWhitespace(s[r - 1])
    decreases j
  {
    if j > lo && IsWhitespace(s[j - 1]) then TailStart(s, lo, j - 1) else j
  }

  /** `r` is `s` with `i` characters of whitespace cut from the front and
      only whitespace cut from the back. */
  predicate PaddedAt(s: string, i: nat, r: string) {
    i <= |s| - |r| && r == s[i..i + |r|] &&
    (forall m :: 0 <= m < i ==> IsWhitespace(s[m])) &&
    (forall m :: i + |r| <= m < |s| ==> IsWhitespace(s[m]))
  }

  /** The text between the leading and the trailing whitespace. */
  function Trim(s: string): (r: string)
    ensures Trimmed(r) && |r| <= |s|
    ensures exists i: nat :: PaddedAt(s, i, r)
  {
    var i := LeadEnd(s, 0);
    var j := TailStart(s, i, |s|);
    assert j > i ==> !IsWhitespace(s[i]);
    assert PaddedAt(s, i, s[i..j]);
    s[i..j]
  }

  /** Trimming removes exactly the padding around a trimmed text. */
  lemma TrimPadded(w1: string, t: string, w2: string)
    requires AllWhitespace(w1) && AllWhitespace(w2) && Trimmed(t)
    ensures Trim(w1 + t + w2) == t
  {
    var s := w1 + t + w2;
    assert forall m :: 0 <= m < |w1| ==> s[m] == w1[m];
    assert forall m :: 0 <= m < |t| ==> s[|w1| + m] == t[m];
    assert forall m :: 0 <= m < |w2| ==> s[|w1| + |t| + m] == w2[m];
    if |t| > 0 {
      LeadEndOver(s, 0, |w1|);
      TailStartOver(s, |w1|, |s|, |w1| + |t|);
      assert s[|w1|..|w1| + |t|] == t;
    } else {
      LeadEndOver(s, 0, |s|);
      assert TailStart(s, |s|, |s|) == |s|;
    }
  }

  /** Over a whitespace run up to a non-whitespace character (or the
      end), the lead ends exactly there. */
  lemma {:induction false} LeadEndOver(s: string, i: nat, e: nat)
    requires i <= e <= |s|
    requires forall m :: i <= m < e ==> IsWhitespace(s[m])
    requires e < |s| ==> !IsWhitespace(s[e])
    ensures LeadEnd(s, i) == e
    decreases e - i
  {
    if i < e {
      LeadEndOver(s, i + 1, e);
    }
  }

  lemma {:induction false} TailStartOver(s: string, lo: nat, j: nat, e: nat)
    requires lo <= e <= j <= |s|
    requires forall m :: e <= m < j ==> IsWhitespace(s[m])
    requires e > lo ==> !IsWhitespace(s[e - 1])
    ensures TailStart(s, lo, j) == e
    decreases j - e
  {
    if e < j {
      TailStartOver(s, lo, j - 1, e);
    }
  }

  // ---------------------------------------------------------------------
  // The history file name.

  /** At most this many characters of the first input name the file. */
  const NameLength: nat := 10

  /** Characters the name keeps (`is_alphanumeric() || is_whitespace()`,
      with letters and digits restricted to ASCII). */
  predicate Kept(c: char) {
    IsAsciiAlphanumeric(c) || IsWhitespace(c)
  }

  /** The kept characters, in order. */
  function KeepChars(s: string): (r: string)
    ensures |r| <= |s|
    ensures forall i :: 0 <= i < |r| ==> Kept(r[i])
    ensures (forall i :: 0 <= i < |s| ==> Kept(s[i])) ==> r == s
    ensures (forall i :: 0 <= i < |s| ==> !Kept(s[i])) ==> r == ""
    decreases |s|
  {
    if |s| == 0 then ""
    else if Kept(s[0]) then [s[0]] + KeepChars(s[1..])
    else KeepChars(s[1..])
  }

  /** Filtering distributes over concatenation. */
  lemma {:induction false} KeepCharsConcat(a: string, b: string)
    ensures KeepChars(a + b) == KeepChars(a) + KeepChars(b)
    decreases |a|
  {
    if |a| > 0 {
      assert (a + b)[1..] == a[1..] + b;
      KeepCharsConcat(a[1..], b);
    } else {
      assert a + b == b;
    }
  }

  /** `to_ascii_lowercase` followed by `replace(' ', "_")`, on one character. */
  function Fold(c: char): (d: char)
    ensures Kept(c) ==> Kept(d) || d == '_'
    ensures d == '/' <==> c == '/'
  {
    if 'A' <= c <= 'Z' then (c as int - 'A' as int + 'a' as int) as char
    else if c == ' ' then '_'
    else c
  }

  function FoldChars(s: string): (r: string)
    ensures |r| == |s| && forall i :: 0 <= i < |s| ==> r[i] == Fold(s[i])
    decreases |s|
  {
    if |s| == 0 then "" else [Fold(s[0])] + FoldChars(s[1..])
  }

  /** The part of the name taken from the input. */
  function Stem(input: string): (r: string)
    ensures |r| <= NameLength && '/' !in r
    ensures forall i :: 0 <= i < |r| ==>
              IsDigit(r[i]) || 'a' <= r[i] <= 'z' || r[i] == '_' || (IsWhitespace(r[i]) && r[i] != ' ')
  {
    var head := if |input| <= NameLength then input else input[..NameLength];
    var r := FoldChars(KeepChars(head));
    assert forall i :: 0 <= i < |r| ==> r[i] != '/';
    r
  }

  /** `gemini_{stem}.md`. */
  function Decorated(stem: string): (name: string)
    requires |stem| <= NameLength && '/' !in stem
    ensures |name| <= 20 && '/' !in name && name != "gemini.md"
    ensures StartsWith(name, "gemini") && name[|name| - 3..] == ".md"
  {
    var name := "gemini_" + stem + ".md";
    assert name[..6] == "gemini";
    assert name[|name| - 3..] == ".md";
    assert name[6] == '_';
    name
  }

  /** The name of the history file, from the trimmed first input. */
  function FileName(input: string): (name: string)
    ensures |name| <= 20 && '/' !in name
    ensures StartsWith(name, "gemini") && name[|name| - 3..] == ".md"
    ensures name == "gemini.md" <==> |Stem(input)| == 0
  {
    var stem := Stem(input);
    if |stem| == 0 then "gemini.md" else Decorated(stem)
  }

  /** A word of lower-case ASCII letters and digits is its own stem, cut to
      ten characters. */
  lemma WordStem(word: string)
    requires forall i :: 0 <= i < |word| ==> IsDigit(word[i]) || 'a' <= word[i] <= 'z'
    ensures Stem(word) == if |word| <= NameLength then word else word[..NameLength]
  {
    var head := if |word| <= NameLength then word else word[..NameLength];
    assert KeepChars(head) == head;
    assert FoldChars(head) == head;
  }

  // ---------------------------------------------------------------------
  // Where the history file goes.

  /** `PathBuf::push` on Unix: an absolute component replaces the path;
      otherwise a `/` is added unless the path is empty or already ends in
      one. `Path::join` is a push onto a copy. */
  function Push(path: string, component: string): (r: string)
    ensures StartsWith(component, "/") ==> r == component
    ensures !StartsWith(component, "/") ==> StartsWith(r, path) && |r| >= |component| && r[|r| - |component|..] == component
  {
    if StartsWith(component, "/") then component
    else if |path| == 0 || path[|path| - 1] == '/' then path + component
    else path + "/" + component
  }

  /** The text after the last `/` (all of it when there is none). */
  function BaseName(p: string): (b: string)
    ensures |b| <= |p| && b == p[|p| - |b|..] && '/' !in b
    decreases |p|
  {
    if |p| == 0 then ""
    else if p[|p| - 1] == '/' then ""
    else BaseName(p[..|p| - 1]) + [p[|p| - 1]]
  }

  lemma {:induction false} BaseNameAfterSlash(dir: string, name: string)
    requires '/' !in name
    ensures BaseName(dir + "/" + name) == name
    decreases |name|
  {
    var p := dir + "/" + name;
    if |name| == 0 {
      assert p[|p| - 1] == '/';
    } else {
      assert p[..|p| - 1] == dir + "/" + name[..|name| - 1];
      BaseNameAfterSlash(dir, name[..|name| - 1]);
      assert name == name[..|name| - 1] + [name[|name| - 1]];
    }
  }

  /** A blank history setting means no history file. */
  predicate NoHistory(history: string) {
    |Trim(history)| == 0
  }

  /** The history file as the current client computes it: a directory not
      ending in `/` first gets `/` pushed onto it, which, being absolute,
      replaces the directory. */
  function HistoryFileAsWritten(history: string, name: string): (r: Option<string>)
    ensures r.None? <==> NoHistory(history)
  {
    if NoHistory(history) then None
    else
      var dir := if |history| > 0 && history[|history| - 1] == '/' then history else Push(history, "/");
      Some(Push(dir, name))
  }

  /** As written, a directory without a trailing `/` is ignored: the file
      goes to the root directory. */
  lemma AsWrittenIgnoresDirectory(history: string, name: string)
    requires !NoHistory(history) && history[|history| - 1] != '/'
    requires !StartsWith(name, "/")
    ensures HistoryFileAsWritten(history, name) == Some("/" + name)
  {
  }

  /** For instance the setting `notes` sends the history to `/gemini.md`. */
  lemma AsWrittenExample()
    ensures HistoryFileAsWritten("notes", "gemini.md") == Some("/gemini.md")
    ensures !StartsWith("/gemini.md", "notes")
  {
    assert "" + "notes" + "" == "notes";
    assert Trimmed("notes");
    TrimPadded("", "notes", "");
    assert !NoHistory("notes");
    assert !StartsWith("gemini.md", "/") by { assert "gemini.md"[0] != '/'; }
    AsWrittenIgnoresDirectory("notes", "gemini.md");
    assert "/" + "gemini.md" == "/gemini.md";
    assert "/gemini.md"[0] != "notes"[0];
  }

  /** The history file as intended: the name joined onto the directory. */
  function HistoryFile(history: string, name: string): (r: Option<string>)
    ensures r.None? <==> NoHistory(history)
  {
    if NoHistory(history) then None else Some(Push(history, name))
  }

  /** The intended file lies in the history directory and is named `name`;
      every name `FileName` gives qualifies. */
  lemma HistoryFileInside(history: string, name: string)
    requires !NoHistory(history)
    requires |name| > 0 && '/' !in name
    ensures var r := HistoryFile(history, name);
            r.Some? && StartsWith(r.value, history) && BaseName(r.value) == name &&
            |r.value| <= |history| + 1 + |name|
  {
    assert !StartsWith(name, "/") by { assert name[0] != '/'; }
    if history[|history| - 1] == '/' {
      var d := history[..|history| - 1];
      assert history == d + "/";
      assert history + name == d + "/" + name;
      BaseNameAfterSlash(d, name);
    } else {
      BaseNameAfterSlash(history, name);
    }
  }

  // ---------------------------------------------------------------------
  // The progress-bar style menu.

  /** The six styles, numbered from 1 in the menu. */
  const Styles: seq<string> := [
    "⠁⠂⠄⡀⢀⠠⠐⠈",
    "○○◔◔◑◑◕◕●●◕◕◑◑◔◔",
    "▁▁▂▂▃▃▄▄▅▅▆▆▇▇██▇▇▆▆▅▅▄▄▃▃▂▂",
    "-\\|/-\\|/",
    "◐◐◓◓◑◑◒◒",
    "/-\\|/-\\|"]

  /** The largest `usize` plus one, for a 64-bit target. */
  const UsizeLimit: nat := 0x1_0000_0000_0000_0000

  /** `str::parse::<usize>`: an optional `+`, then one or more decimal
      digits, whose value must fit. */
  function ParseUsize(s: string): (r: Option<nat>)
    ensures r.Some? ==> r.value < UsizeLimit
    ensures r.Some? ==> 0 < |s| && (IsDigit(s[0]) || s[0] == '+')
  {
    var digits := if |s| > 0 && s[0] == '+' then s[1..] else s;
    if |digits| == 0 || !AllDigits(digits) then None
    else
      var n := DigitsValue(digits);
      if n < UsizeLimit then Some(n) else None
  }

  /** Reading the text of a number gives the number back, with or without
      a `+`. */
  lemma ParseUsizeText(n: nat)
    requires n < UsizeLimit
    ensures ParseUsize(NatText(n)) == Some(n)
    ensures ParseUsize("+" + NatText(n)) == Some(n)
  {
    NatTextValue(n);
    NatTextShape(n);
    assert ("+" + NatText(n))[1..] == NatText(n);
  }

  /** `trim().parse().unwrap_or(0)`. */
  function MenuNumber(line: string): nat {
    match ParseUsize(Trim(line))
    case Some(n) => n
    case None => 0
  }

  /** The style picked by a reply to the menu listing `styles`, or none
      for an invalid selection (which keeps the style in use). The menu of
      the client is `Styles`. */
  function SelectStyle(styles: seq<string>, line: string): (r: Option<string>)
    ensures r.Some? <==> 1 <= MenuNumber(line) <= |styles|
    ensures r.Some? ==> r.value == styles[MenuNumber(line) - 1]
  {
    var n := MenuNumber(line);
    if n > |styles| || n < 1 then None else Some(styles[n - 1])
  }

  /** The client's own menu. */
  function MenuStyle(line: string): (r: Option<string>)
    ensures r.Some? <==> 1 <= MenuNumber(line) <= 6
  {
    assert |Styles| == 6;
    SelectStyle(Styles, line)
  }

  /** Typing the number of a style, padded with whitespace, picks it. */
  lemma SelectStyleByNumber(styles: seq<string>, k: nat, w1: string, w2: string)
    requires 1 <= k <= |styles| && k < UsizeLimit
    requires AllWhitespace(w1) && AllWhitespace(w2)
    ensures SelectStyle(styles, w1 + NatText(k) + w2) == Some(styles[k - 1])
  {
    MenuNumberPadded(k, w1, w2);
  }

  /** The menu reads a number typed with whitespace around it. */
  lemma MenuNumberPadded(k: nat, w1: string, w2: string)
    requires k < UsizeLimit
    requires AllWhitespace(w1) && AllWhitespace(w2)
    ensures MenuNumber(w1 + NatText(k) + w2) == k
  {
    NatTextShape(k);
    assert Trimmed(NatText(k));
    TrimPadded(w1, NatText(k), w2);
    ParseUsizeText(k);
  }

  /** Text that is not a number selects nothing. */
  lemma SelectStyleRejects(styles: seq<string>, line: string)
    requires exists i :: 0 <= i < |Trim(line)| && !IsDigit(Trim(line)[i]) && (i > 0 || Trim(line)[0] != '+')
    ensures SelectStyle(styles, line) == None
  {
    var t := Trim(line);
    var i :| 0 <= i < |t| && !IsDigit(t[i]) && (i > 0 || t[0] != '+');
    var digits := if |t| > 0 && t[0] == '+' then t[1..] else t;
    if |digits| > 0 && t[0] == '+' {
      assert digits[i - 1] == t[i];
    }
  }
}

=== FILE: decimal.dfy ===
/** Decimal digit strings: the text `u64::to_string` gives a request counter,
    and the digit runs a JSON number is read from. Also the ASCII letters
    and digits that the encoders and the file-name filter test for. */
module Decimal {

  predicate IsDigit(c: char) {
    '0' <= c <= '9'
  }

  predicate IsAsciiAlphanumeric(c: char) {
    IsDigit(c) || ('A' <= c <= 'Z') || ('a' <= c <= 'z')
  }

  predicate AllDigits(s: string) {
    forall i :: 0 <= i < |s| ==> IsDigit(s[i])
  }

  function DigitChar(d: nat): (c: char)
    requires d < 10
    ensures IsDigit(c) && c as int - '0' as int == d
  {
    (d + '0' as int) as char
  }

  /** Shortest decimal text of `n`: no sign, no leading zero. */
  function NatText(n: nat): (s: string)
    decreases n
  {
    if n < 10 then [DigitChar(n)] else NatText(n / 10) + [DigitChar(n % 10)]
  }

  /** Value of a digit string read most significant digit first. */
  function DigitsValue(s: string): nat
    requires AllDigits(s)
    decreases |s|
  {
    if |s| == 0 then 0
    else DigitsValue(s[..|s| - 1]) * 10 + (s[|s| - 1] as int - '0' as int)
  }

  /** Length of the longest all-digit prefix of `s`. */
  function DigitRun(s: string): (n: nat)
    ensures n <= |s| && AllDigits(s[..n])
    ensures n < |s| ==> !IsDigit(s[n])
    decreases |s|
  {
    if |s| > 0 && IsDigit(s[0]) then
      var n := 1 + DigitRun(s[1..]);
      assert s[..n] == [s[0]] + s[1..][..n - 1];
      n
    else 0
  }

  /** The text of `n` is a non-empty digit string that starts with '0' only
      when it is "0" itself. */
  lemma {:induction false} NatTextShape(n: nat)
    ensures |NatText(n)| >= 1 && AllDigits(NatText(n))
    ensures NatText(n)[0] == '0' <==> n == 0
    decreases n
  {
    if n >= 10 {
      NatTextShape(n / 10);
    }
  }

  /** Reading the decimal text of `n` gives back `n`. */
  lemma {:induction false} NatTextValue(n: nat)
    ensures AllDigits(NatText(n)) && DigitsValue(NatText(n)) == n
    decreases n
  {
    NatTextShape(n);
    if n >= 10 {
      NatTextValue(n / 10);
      var s := NatText(n);
      assert s[..|s| - 1] == NatText(n / 10);
    }
  }

  /** A digit string followed by a non-digit (or nothing) is one full run. */
  lemma DigitRunOfDigits(ds: string, t: string)
    requires AllDigits(ds)
    requires |t| == 0 || !IsDigit(t[0])
    ensures DigitRun(ds + t) == |ds|
    decreases |ds|
  {
    if |ds| > 0 {
      assert (ds + t)[1..] == ds[1..] + t;
      DigitRunOfDigits(ds[1..], t);
    }
  }
}

=== FILE: envelope.dfy ===
/** Decoding a reply (`Chatbot::ask`, second half): line 3 of the body is a
    JSON array of arrays whose element `[0][2]` is a string holding the
    actual document, itself a JSON array. The fields of interest sit at
    fixed positions of that document, which differ between the current
    Gemini layout (`src/main.rs`) and the legacy Bard layout
    (`src/gpt_bard.rs`). */
module Envelope {
  import opened Base
  import opened Json
  import opened JsonText
  import opened JsonRoundTrip
  import opened Request
  import opened Fallback

  /** The result map `ask` returns (serde's `HashMap<String, Value>`). */
  type Results = map<string, Json>

  /** What the envelope holds. */
  datatype Envelope =
    | NoChatData            // line 3 is not an array of arrays, or has no `[0][2]`
    | NotString             // `[0][2]` is there but is not a string
    | InnerInvalid          // the string is not a JSON array: `ask` fails
    | Document(doc: seq<Json>)

  /** `text.split('\n')` has a fourth piece; with fewer lines the code
      indexes past the end and panics. */
  predicate HasLineThree(text: string) {
    |Split(text, '\n')| > 3
  }

  predicate IsArrayOfArrays(j: Json) {
    j.Arr? && forall i :: 0 <= i < |j.items| ==> j.items[i].Arr?
  }

  /** `serde_json::from_str::<Vec<Vec<Value>>>`: the line is accepted
      exactly when it parses to an array of arrays, and then gives those
      rows. */
  function AsArrayOfArrays(line: string): (r: Option<seq<Json>>)
    ensures r.Some? <==> Parse(line).Some? && IsArrayOfArrays(Parse(line).value)
    ensures r.Some? ==> Parse(line) == Some(Arr(r.value))
    ensures r.Some? ==> forall i :: 0 <= i < |r.value| ==> r.value[i].Arr?
  {
    match Parse(line)
    case Some(Arr(rows)) => if forall i :: 0 <= i < |rows| ==> rows[i].Arr? then Some(rows) else None
    case _ => None
  }

  /** Any array of arrays, as the server writes it, is read back as those rows. */
  lemma ArraysRoundTrip(rows: seq<Json>)
    requires forall i :: 0 <= i < |rows| ==> rows[i].Arr?
    ensures AsArrayOfArrays(Serialize(Arr(rows))) == Some(rows)
  {
    ParseSerialize(Arr(rows));
  }

  /** `inner_data.get(0).and_then(|item| item.get(2))`. */
  function ChatData(rows: seq<Json>): (r: Option<Json>)
    requires forall i :: 0 <= i < |rows| ==> rows[i].Arr?
    ensures r.Some? <==> |rows| > 0 && |rows[0].items| > 2
    ensures r.Some? ==> r.value == rows[0].items[2]
  {
    if |rows| > 0 && |rows[0].items| > 2 then Some(rows[0].items[2]) else None
  }

  function OpenEnvelope(text: string): (e: Envelope)
    requires HasLineThree(text)
  {
    var line := Split(text, '\n')[3];
    match AsArrayOfArrays(line)
    case None => NoChatData
    case Some(rows) =>
      match ChatData(rows)
      case None => NoChatData
      case Some(data) =>
        if !data.Str? then NotString
        else
          match Parse(data.s)
          case Some(Arr(doc)) => Document(doc)
          case _ => InnerInvalid
  }

  /** A reply whose fourth line is the serialised envelope `[[a, b, S]]`,
      with `S` the serialised document, opens to that document. */
  lemma OpenServedDocument(text: string, a: Json, b: Json, doc: seq<Json>)
    requires HasLineThree(text)
    requires Split(text, '\n')[3] == Serialize(Arr([Arr([a, b, Str(Serialize(Arr(doc)))])]))
    ensures OpenEnvelope(text) == Document(doc)
  {
    var rows := [Arr([a, b, Str(Serialize(Arr(doc)))])];
    ParseSerialize(Arr(rows));
    ParseSerialize(Arr(doc));
    assert AsArrayOfArrays(Split(text, '\n')[3]) == Some(rows);
  }

  /** `json_chat_data[4].as_array().unwrap()` does not panic. */
  predicate Decodable(doc: seq<Json>) {
    |doc| > 4 && doc[4].Arr?
  }

  // ---------------------------------------------------------------------
  // Choices. serde_json keeps object members in key order, so a choice is
  // written `{"content": ..., "id": ...}` and a location
  // `{"address": ..., "place_type": ...}`.

  function Choice(id: Json, content: Json): (c: Json)
    ensures Get(c, "id") == Some(id) && Get(c, "content") == Some(content)
  {
    var ms := [Member("content", content), Member("id", id)];
    assert ms[1..] == [Member("id", id)];
    assert "content" != "id" by { assert |"content"| != |"id"|; }
    assert Lookup(ms[1..], "id") == Some(id);
    Obj(ms)
  }

  /** The current layout skips the first candidate, which is the answer
      already shown, and takes `id = c[0]` and `content = c[1][0]`. */
  function CurrentChoices(candidates: seq<Json>): (cs: seq<Json>)
    ensures |cs| == if |candidates| == 0 then 0 else |candidates| - 1
    ensures forall k :: 0 <= k < |cs| ==>
              cs[k] == Choice(At(candidates[k + 1], 0), At(At(candidates[k + 1], 1), 0))
  {
    if |candidates| == 0 then [] else ChoicesOf(candidates[1..], true)
  }

  /** The legacy layout keeps every candidate: `id = c[0]`, `content = c[1]`. */
  function LegacyChoices(candidates: seq<Json>): (cs: seq<Json>)
    ensures |cs| == |candidates|
    ensures forall k :: 0 <= k < |cs| ==> cs[k] == Choice(At(candidates[k], 0), At(candidates[k], 1))
  {
    ChoicesOf(candidates, false)
  }

  /** Maps every candidate to its choice object, in order; `nested` picks
      whether the content is `c[1][0]` or `c[1]`. */
  function ChoicesOf(candidates: seq<Json>, nested: bool): (cs: seq<Json>)
    ensures |cs| == |candidates|
    ensures forall k :: 0 <= k < |cs| ==>
              cs[k] == Choice(At(candidates[k], 0), if nested then At(At(candidates[k], 1), 0) else At(candidates[k], 1))
    decreases |candidates|
  {
    if |candidates| == 0 then []
    else
      var c := candidates[0];
      [Choice(At(c, 0), if nested then At(At(c, 1), 0) else At(c, 1))] + ChoicesOf(candidates[1..], nested)
  }

  /** `location_map`: each of `address` and `place_type` only when the
      corresponding element is a string. */
  function Location(loc: Json): (r: Json)
    ensures r.Obj? && |r.members| <= 2
    ensures |r.members| == (if At(loc, 0).Str? then 1 else 0) + (if At(loc, 1).Str? then 1 else 0)
    ensures forall m :: m in r.members ==> m.key == "address" || m.key == "place_type"
    ensures Get(r, "address") == if At(loc, 0).Str? then Some(At(loc, 0)) else None
    ensures Get(r, "place_type") == if At(loc, 1).Str? then Some(At(loc, 1)) else None
  {
    var address, placeType := Member("address", At(loc, 0)), Member("place_type", At(loc, 1));
    assert "address" != "place_type" by { assert |"address"| != |"place_type"|; }
    if At(loc, 0).Str? && At(loc, 1).Str? then
      assert [address, placeType][1..] == [placeType];
      assert Lookup([placeType], "place_type") == Some(At(loc, 1));
      assert Lookup([address, placeType], "place_type") == Some(At(loc, 1));
      Obj([address, placeType])
    else if At(loc, 0).Str? then Obj([address])
    else if At(loc, 1).Str? then Obj([placeType])
    else Obj([])
  }

  // ---------------------------------------------------------------------
  // The two layouts.

  /** Neither `location` nor `factualityQueries` is one of the five keys the
      current layout always sets; the lengths already tell them apart. */
  lemma CurrentKeysApart()
    ensures "location" !in {"content", "conversation_id", "response_id", "textQuery", "choices"}
    ensures "factualityQueries" !in {"content", "conversation_id", "response_id", "textQuery", "choices"}
  {
    assert |"location"| == 8 && |"factualityQueries"| == 17;
    assert |"content"| == 7 && |"conversation_id"| == 15 && |"response_id"| == 11;
    assert |"textQuery"| == 9 && |"choices"| == 7;
  }

  /** The five entries the current layout always sets, and `location` when
      there is one. */
  function CurrentMap(content: Json, cid: Json, rid: Json, query: Json, choices: Json,
                      location: Option<Json>): (m: Results)
    ensures m.Keys == {"content", "conversation_id", "response_id", "textQuery", "choices"}
                      + (if location.Some? then {"location"} else {})
    ensures "content" in m && "conversation_id" in m && "response_id" in m
    ensures "textQuery" in m && "choices" in m && "factualityQueries" !in m
    ensures "location" in m <==> location.Some?
    ensures m["content"] == content && m["conversation_id"] == cid && m["response_id"] == rid
    ensures m["textQuery"] == query && m["choices"] == choices
    ensures location.Some? ==> m["location"] == location.value
  {
    var base := map["content" := content, "conversation_id" := cid, "response_id" := rid,
                    "textQuery" := query, "choices" := choices];
    CurrentKeysApart();
    if location.Some? then base["location" := location.value] else base
  }

  function CurrentResults(doc: seq<Json>): (r: Results)
    requires Decodable(doc)
    ensures r.Keys == {"content", "conversation_id", "response_id", "textQuery", "choices"}
                      + (if |doc| > 7 then {"location"} else {})
    ensures "factualityQueries" !in r
    ensures "location" in r <==> |doc| > 7
    ensures r["content"] == At(At(At(doc[4], 0), 1), 0)
    ensures r["conversation_id"] == At(doc[1], 0) && r["response_id"] == At(doc[1], 1)
    ensures r["textQuery"] == At(At(doc[2], 0), 0)
    ensures r["choices"] == Arr(CurrentChoices(doc[4].items))
    ensures "location" in r ==> r["location"] == Location(doc[7])
  {
    CurrentKeysApart();
    CurrentMap(At(At(At(doc[4], 0), 1), 0), At(doc[1], 0), At(doc[1], 1), At(At(doc[2], 0), 0),
               Arr(CurrentChoices(doc[4].items)),
               if |doc| > 7 then Some(Location(doc[7])) else None)
  }

  function LegacyResults(doc: seq<Json>): (r: Results)
    requires Decodable(doc)
    ensures r.Keys == {"content", "conversation_id", "response_id", "factualityQueries", "textQuery", "choices"}
    ensures r["content"] == At(doc[0], 0)
    ensures r["conversation_id"] == At(doc[1], 0) && r["response_id"] == At(doc[1], 1)
    ensures r["factualityQueries"] == doc[3]
    ensures r["textQuery"] == At(doc[2], 0)
    ensures r["choices"] == Arr(LegacyChoices(doc[4].items))
  {
    map[
      "content" := At(doc[0], 0),
      "conversation_id" := At(doc[1], 0),
      "response_id" := At(doc[1], 1),
      "factualityQueries" := doc[3],
      "textQuery" := At(doc[2], 0),
      "choices" := Arr(LegacyChoices(doc[4].items))]
  }

  function Decode(v: Variant, doc: seq<Json>): Results
    requires Decodable(doc)
  {
    match v
    case Current => CurrentResults(doc)
    case Legacy => LegacyResults(doc)
  }

  // ---------------------------------------------------------------------
  // Reading the tokens back out of the result map.

  function Field(r: Results, key: string): Option<string> {
    if key in r then AsStr(r[key]) else None
  }

  /** `results["choices"].as_array()?.get(0)?.get("id")?.as_str()`. */
  function PrimaryChoiceId(r: Results): Option<string> {
    if "choices" in r && r["choices"].Arr? && |r["choices"].items| > 0 then
      match Get(r["choices"].items[0], "id")
      case Some(id) => AsStr(id)
      case None => None
    else None
  }

  /** The choice id the current client commits: the primary one, else the
      `rc_` search over the document. */
  function CurrentChoiceId(doc: seq<Json>): (id: Option<string>)
    requires Decodable(doc)
  {
    match PrimaryChoiceId(CurrentResults(doc))
    case Some(id) => Some(id)
    case None => RcChoiceId(doc)
  }

  function ChoiceId(v: Variant, doc: seq<Json>): Option<string>
    requires Decodable(doc)
  {
    match v
    case Current => CurrentChoiceId(doc)
    case Legacy => PrimaryChoiceId(LegacyResults(doc))
  }

  // ---------------------------------------------------------------------
  // Properties of the layouts.

  /** Current layout: the primary choice id is `doc[4][1][0]` when that is a
      string, and there is none when `doc[4]` has fewer than two entries. */
  lemma CurrentPrimaryChoice(doc: seq<Json>)
    requires Decodable(doc)
    ensures PrimaryChoiceId(CurrentResults(doc)) == AsStr(At(At(doc[4], 1), 0))
  {
    var cs := CurrentChoices(doc[4].items);
    if |doc[4].items| > 1 {
      assert cs[0] == Choice(At(doc[4].items[1], 0), At(At(doc[4].items[1], 1), 0));
    }
  }

  /** Legacy layout: the choice id is `doc[4][0][0]` when that is a string;
      there is no second chance. */
  lemma LegacyPrimaryChoice(doc: seq<Json>)
    requires Decodable(doc)
    ensures ChoiceId(Legacy, doc) == AsStr(At(At(doc[4], 0), 0))
  {
    var cs := LegacyChoices(doc[4].items);
    if |doc[4].items| > 0 {
      assert cs[0] == Choice(At(doc[4].items[0], 0), At(doc[4].items[0], 1));
    }
  }

  /** The `rc_` search only matters when there is no primary choice id: a
      string at `doc[4][1][0]` always wins. */
  lemma FallbackOnlyWithoutPrimary(doc: seq<Json>)
    requires Decodable(doc)
    ensures At(At(doc[4], 1), 0).Str? ==> CurrentChoiceId(doc) == Some(At(At(doc[4], 1), 0).s)
    ensures !At(At(doc[4], 1), 0).Str? ==> CurrentChoiceId(doc) == RcChoiceId(doc)
  {
    CurrentPrimaryChoice(doc);
  }
}

=== FILE: fallback.dfy ===
/** The `rc_` search `src/main.rs` falls back on when a reply lists no
    alternative choice: the first string starting with `rc_` among the
    elements `doc[i][j]` and `doc[i][j][k]` of the decoded document, in
    (i, j, k) order. Strings at the top level or deeper than three levels
    are never looked at, and a string `doc[i][j]` that does not start with
    `rc_` is not descended into. */
module Fallback {
  import opened Base
  import opened Json

  /** Where a candidate sits: `doc[i][j]` or `doc[i][j][k]`. */
  datatype Pos = Item(i: nat, j: nat) | Inner(i: nat, j: nat, k: nat)

  predicate IsRc(v: Json) {
    v.Str? && StartsWith(v.s, "rc_")
  }

  /** `p` names a string starting with `rc_` that the search can reach. */
  predicate RcAt(doc: seq<Json>, p: Pos) {
    p.i < |doc| && doc[p.i].Arr? && p.j < |doc[p.i].items| &&
    match p
    case Item(i, j) => IsRc(doc[i].items[j])
    case Inner(i, j, k) =>
      doc[i].items[j].Arr? && k < |doc[i].items[j].items| && IsRc(doc[i].items[j].items[k])
  }

  /** The string at a position the search can reach. */
  function TextAt(doc: seq<Json>, p: Pos): string
    requires RcAt(doc, p)
  {
    match p
    case Item(i, j) => doc[i].items[j].s
    case Inner(i, j, k) => doc[i].items[j].items[k].s
  }

  /** Search order: by `i`, then `j`, then `k`. Two positions with the same
      `i` and `j` cannot both hold a string, since `doc[i][j]` is either a
      string or an array. */
  predicate Precedes(p: Pos, q: Pos) {
    p.i < q.i || (p.i == q.i && p.j < q.j) ||
    (p.i == q.i && p.j == q.j && p.Inner? && q.Inner? && p.k < q.k)
  }

  /** The inner loop: `doc[i][j][k..]`. */
  function ScanInner(doc: seq<Json>, i: nat, j: nat, k: nat): (r: Option<Pos>)
    requires i < |doc| && doc[i].Arr? && j < |doc[i].items| && doc[i].items[j].Arr?
    requires k <= |doc[i].items[j].items|
    ensures r.Some? ==> RcAt(doc, r.value) && r.value.Inner? && r.value.i == i && r.value.j == j
    ensures r.Some? ==> k <= r.value.k && forall m :: k <= m < r.value.k ==> !RcAt(doc, Inner(i, j, m))
    ensures r.None? ==> forall m :: k <= m ==> !RcAt(doc, Inner(i, j, m))
    decreases |doc[i].items[j].items| - k
  {
    if k == |doc[i].items[j].items| then None
    else if IsRc(doc[i].items[j].items[k]) then Some(Inner(i, j, k))
    else ScanInner(doc, i, j, k + 1)
  }

  /** The middle loop: `doc[i][j..]`; a string is tested, an array is
      searched one level down, anything else is skipped. */
  function ScanRow(doc: seq<Json>, i: nat, j: nat): (r: Option<Pos>)
    requires i < |doc| && doc[i].Arr? && j <= |doc[i].items|
    ensures r.Some? ==> RcAt(doc, r.value) && r.value.i == i && j <= r.value.j
    ensures r.Some? ==> forall q :: RcAt(doc, q) && q.i == i && j <= q.j ==> q == r.value || Precedes(r.value, q)
    ensures r.None? ==> forall q :: RcAt(doc, q) && q.i == i ==> q.j < j
    decreases |doc[i].items| - j
  {
    if j == |doc[i].items| then None
    else
      var v := doc[i].items[j];
      if v.Str? then
        if StartsWith(v.s, "rc_") then Some(Item(i, j)) else ScanRow(doc, i, j + 1)
      else if v.Arr? then
        match ScanInner(doc, i, j, 0)
        case Some(p) => Some(p)
        case None => ScanRow(doc, i, j + 1)
      else ScanRow(doc, i, j + 1)
  }

  /** The outer loop: `doc[i..]`, skipping elements that are not arrays. */
  function ScanDoc(doc: seq<Json>, i: nat): (r: Option<Pos>)
    requires i <= |doc|
    ensures r.Some? ==> RcAt(doc, r.value) && i <= r.value.i
    ensures r.Some? ==> forall q :: RcAt(doc, q) && i <= q.i ==> q == r.value || Precedes(r.value, q)
    ensures r.None? ==> forall q :: RcAt(doc, q) ==> q.i < i
    decreases |doc| - i
  {
    if i == |doc| then None
    else if doc[i].Arr? then
      match ScanRow(doc, i, 0)
      case Some(p) => Some(p)
      case None => ScanDoc(doc, i + 1)
    else ScanDoc(doc, i + 1)
  }

  /** The string the fallback settles on, if any. */
  function RcChoiceId(doc: seq<Json>): (r: Option<string>)
    ensures r.None? <==> forall q :: !RcAt(doc, q)
    ensures r.Some? ==> StartsWith(r.value, "rc_")
    ensures r.Some? ==> exists p :: RcAt(doc, p) && TextAt(doc, p) == r.value &&
                                    forall q :: RcAt(doc, q) ==> q == p || Precedes(p, q)
  {
    match ScanDoc(doc, 0)
    case Some(p) => Some(TextAt(doc, p))
    case None => None
  }
}

=== FILE: json.dfy ===
/** JSON values (RFC 8259) as serde_json's `Value` sees them, with the total
    positional indexing `value[i]` the decoders are written in. */
module Json {
  import opened Base

  /** A number is kept exactly as `mantissa * 10^exponent`, so "1.5e3" reads
      as Num(15, 2); no binary floating point is involved. */
  datatype Json =
    | Null
    | Bool(b: bool)
    | Num(mantissa: int, exponent: int)
    | Str(s: string)
    | Arr(items: seq<Json>)
    | Obj(members: seq<Member>)

  /** One `"key": value` pair of an object. */
  datatype Member = Member(key: string, value: Json)

  /** serde_json's `&value[i]`: the element when `value` is an array long
      enough, and `Null` for every other value or index. */
  function At(v: Json, i: nat): (r: Json)
    ensures v.Arr? && i < |v.items| ==> r == v.items[i]
    ensures !(v.Arr? && i < |v.items|) ==> r == Null
  {
    if v.Arr? && i < |v.items| then v.items[i] else Null
  }

  /** `Value::as_str`. */
  function AsStr(v: Json): (r: Option<string>)
    ensures r.Some? <==> v.Str?
    ensures r.Some? ==> r.value == v.s
  {
    if v.Str? then Some(v.s) else None
  }

  /** `Value::get(key)` on an object: the first member named `key`; `None`
      for a missing key or a value that is not an object. */
  function Get(v: Json, key: string): (r: Option<Json>)
    ensures r.Some? ==> v.Obj? && exists i :: 0 <= i < |v.members| && v.members[i] == Member(key, r.value)
    ensures v.Obj? && |v.members| > 0 && v.members[0].key == key ==> r == Some(v.members[0].value)
  {
    if v.Obj? then Lookup(v.members, key) else None
  }

  function Lookup(ms: seq<Member>, key: string): (r: Option<Json>)
    ensures r.Some? ==> exists i :: 0 <= i < |ms| && ms[i] == Member(key, r.value)
    ensures r.None? ==> forall i :: 0 <= i < |ms| ==> ms[i].key != key
    decreases |ms|
  {
    if |ms| == 0 then None
    else if ms[0].key == key then Some(ms[0].value)
    else Lookup(ms[1..], key)
  }
}

=== FILE: json_roundtrip.dfy ===
/** Parsing undoes serialising: every value survives `to_string` followed by
    `from_str`, which is what lets the request payload be nested as a JSON
    string inside JSON and still be read back. */
module JsonRoundTrip {
  import opened Base
  import opened Json
  import opened Decimal
  import opened JsonText

  /** What may follow a value inside a container or at the end of a text. */
  predicate Delimited(t: string) {
    |t| == 0 || t[0] == ',' || t[0] == ']' || t[0] == '}'
  }

  lemma HexLowerValue(d: nat)
    requires d < 16
    ensures HexValue(HexLower(d)) == Some(d)
  {
  }

  /** The text of a value never starts with whitespace. */
  lemma SerializeStart(v: Json)
    ensures |Serialize(v)| > 0 && !IsWs(Serialize(v)[0]) && Serialize(v)[0] != ']'
  {
    if v.Num? {
      NatTextShape(if v.mantissa < 0 then -v.mantissa else v.mantissa);
    }
  }

  /** One escaped character is read back as that character, whatever follows. */
  lemma ParseEscapedChar(c: char, rest: string)
    ensures ParseString(EscapeChar(c) + rest) ==
            match ParseString(rest)
            case None => None
            case Some((t, r)) => Some(([c] + t, r))
  {
    var s := EscapeChar(c) + rest;
    if c == '"' || c == '\\' || c == '\U{8}' || c == '\t' || c == '\n' || c == '\U{C}' || c == '\r' {
      assert s[1..] == [EscapeChar(c)[1]] + rest;
      assert ParseEscape(s[1..]) == Some((c, rest));
    } else if c as int < 0x20 {
      var h1, h2 := c as int / 16, c as int % 16;
      HexLowerValue(h1);
      HexLowerValue(h2);
      var u := s[1..];
      assert u == ['u', '0', '0', HexLower(h1), HexLower(h2)] + rest;
      assert u[1..5] == ['0', '0', HexLower(h1), HexLower(h2)];
      assert Hex4(u[1..5]) == Some(c as int);
      assert u[5..] == rest;
      assert ParseEscape(u) == Some((c, rest));
    } else {
      assert s[1..] == rest;
    }
  }

  /** A quoted text is read back as the original string. */
  lemma {:induction false} EscapeRoundTrip(x: string, t: string)
    ensures ParseString(Escape(x) + "\"" + t) == Some((x, t))
    decreases |x|
  {
    if |x| == 0 {
      assert Escape(x) + "\"" + t == "\"" + t;
    } else {
      var tail := Escape(x[1..]) + "\"" + t;
      assert Escape(x) + "\"" + t == EscapeChar(x[0]) + tail;
      ParseEscapedChar(x[0], tail);
      EscapeRoundTrip(x[1..], t);
      assert [x[0]] + x[1..] == x;
    }
  }

  /** The decimal text of a number, followed by a non-digit, is read back. */
  lemma DigitsRoundTrip(k: nat, t: string)
    requires |t| == 0 || !IsDigit(t[0])
    ensures ParseDigits(NatText(k) + t) == Some((k, t))
  {
    var y := NatText(k);
    NatTextValue(k);
    DigitRunOfDigits(y, t);
    assert (y + t)[..|y|] == y && (y + t)[|y|..] == t;
  }

  lemma SignedDigitsNegative(k: nat, t: string)
    requires |t| == 0 || !IsDigit(t[0])
    ensures ParseSignedDigits("-" + NatText(k) + t) == Some((-(k as int), t))
  {
    var d := "-" + NatText(k) + t;
    assert d[1..] == NatText(k) + t;
    DigitsRoundTrip(k, t);
  }

  lemma SignedDigitsPlain(k: nat, t: string)
    requires |t| == 0 || !IsDigit(t[0])
    ensures ParseSignedDigits(NatText(k) + t) == Some((k, t))
  {
    NatTextShape(k);
    assert (NatText(k) + t)[0] == NatText(k)[0];
    DigitsRoundTrip(k, t);
  }

  lemma ExponentTextNegative(e: int, t: string)
    requires e < 0
    ensures ExponentText(e) + t == "e" + ("-" + NatText(-e) + t)
  {
  }

  lemma ExponentTextPositive(e: int, t: string)
    requires e > 0
    ensures ExponentText(e) + t == "e" + (NatText(e) + t)
  {
  }

  lemma MarkedExponent(d: string)
    ensures ParseExponent("e" + d) == ParseSignedDigits(d)
  {
    assert ("e" + d)[1..] == d;
  }

  lemma ExponentNegative(e: int, t: string)
    requires e < 0 && Delimited(t)
    ensures ParseExponent(ExponentText(e) + t) == Some((e, t))
  {
    ExponentTextNegative(e, t);
    MarkedExponent("-" + NatText(-e) + t);
    SignedDigitsNegative(-e, t);
  }

  lemma ExponentPositive(e: int, t: string)
    requires e > 0 && Delimited(t)
    ensures ParseExponent(ExponentText(e) + t) == Some((e, t))
  {
    ExponentTextPositive(e, t);
    MarkedExponent(NatText(e) + t);
    SignedDigitsPlain(e, t);
  }

  /** The exponent part is read back, given a delimiter after it. */
  lemma ExponentRoundTrip(e: int, t: string)
    requires Delimited(t)
    ensures ParseExponent(ExponentText(e) + t) == Some((e, t))
  {
    if e == 0 {
      assert ExponentText(e) + t == t;
    } else if e < 0 {
      ExponentNegative(e, t);
    } else {
      ExponentPositive(e, t);
    }
  }

  /** The digits of a magnitude are read back, whatever exponent follows. */
  lemma UnsignedRoundTrip(k: nat, tail: string)
    requires |tail| == 0 || (!IsDigit(tail[0]) && tail[0] != '.')
    ensures ParseUnsigned(NatText(k) + tail) ==
            match ParseExponent(tail)
            case None => None
            case Some((e, rest)) => Some((k, e, rest))
  {
    IntegerPart(k, tail);
    NatTextValue(k);
    UnsignedParts(NatText(k) + tail, NatText(k), tail, k);
  }

  /** The integer part of `NatText(k) + tail` is exactly `NatText(k)`. */
  lemma IntegerPart(k: nat, tail: string)
    requires |tail| == 0 || !IsDigit(tail[0])
    ensures var x := NatText(k);
            var a := x + tail;
            && |a| > 0 && IsDigit(a[0]) && IntegerLength(a) == |x|
            && a[..|x|] == x && a[|x|..] == tail
  {
    var x := NatText(k);
    var a := x + tail;
    NatTextShape(k);
    DigitRunOfDigits(x, tail);
    assert a[0] == x[0];
    if a[0] == '0' { assert k == 0; }
    assert a[..|x|] == x && a[|x|..] == tail;
  }

  /** An integer part without fraction, followed by an exponent. */
  lemma UnsignedParts(a: string, x: string, tail: string, k: nat)
    requires |a| > 0 && IsDigit(a[0]) && AllDigits(x) && DigitsValue(x) == k
    requires IntegerLength(a) == |x| && a[..|x|] == x && a[|x|..] == tail
    requires |tail| == 0 || tail[0] != '.'
    ensures ParseUnsigned(a) ==
            match ParseExponent(tail)
            case None => None
            case Some((e, rest)) => Some((k, e, rest))
  {
    assert ParseFraction(tail) == Some(("", tail));
    assert x + "" == x;
  }

  lemma SerializeNegative(m: int, e: int, t: string)
    requires m < 0
    ensures Serialize(Num(m, e)) + t == "-" + (NatText(-m) + (ExponentText(e) + t))
  {
  }

  lemma SerializeNonNegative(m: int, e: int, t: string)
    requires m >= 0
    ensures Serialize(Num(m, e)) + t == NatText(m) + (ExponentText(e) + t)
  {
  }

  lemma PlainNumber(a: string)
    requires |a| > 0 && IsDigit(a[0])
    ensures ParseNumber(a) == Signed(ParseUnsigned(a), false)
  {
  }

  /** After the digits of a number, its exponent part (or the delimiter when
      there is none) starts with neither a digit nor a decimal point. */
  lemma AfterDigits(e: int, t: string)
    requires Delimited(t)
    ensures var tail := ExponentText(e) + t;
            |tail| == 0 || (!IsDigit(tail[0]) && tail[0] != '.')
  {
    if e != 0 {
      assert (ExponentText(e) + t)[0] == 'e';
    }
  }

  lemma NumberNegative(m: int, e: int, t: string)
    requires m < 0 && Delimited(t)
    ensures ParseNumber(Serialize(Num(m, e)) + t) == Some((Num(m, e), t))
  {
    var k: nat := -m;
    var x := Serialize(Num(m, e)) + t;
    var y := "-" + (NatText(k) + (ExponentText(e) + t));
    SerializeNegative(m, e, t);
    SameNumberText(x, y);
    NegativeText(k, e, t);
    assert 0 - k == m;
  }

  lemma SameNumberText(x: string, y: string)
    requires x == y && |x| > 0 && (x[0] == '-' || IsDigit(x[0]))
    ensures ParseNumber(x) == ParseNumber(y)
  {
  }

  /** The text of a negative number parses back to it. */
  lemma NegativeText(k: nat, e: int, t: string)
    requires Delimited(t)
    ensures ParseNumber("-" + (NatText(k) + (ExponentText(e) + t))) == Some((Num(0 - k, e), t))
  {
    var a := NatText(k) + (ExponentText(e) + t);
    var s := "-" + a;
    assert s[0] == '-' && s[1..] == a;
    UnsignedNumber(k, e, t);
    NegativeParse(s, k, e, t);
  }

  /** The digits and exponent of a number are read back. */
  lemma UnsignedNumber(k: nat, e: int, t: string)
    requires Delimited(t)
    ensures ParseUnsigned(NatText(k) + (ExponentText(e) + t)) == Some((k, e, t))
  {
    AfterDigits(e, t);
    ExponentRoundTrip(e, t);
    UnsignedRoundTrip(k, ExponentText(e) + t);
  }

  /** A minus sign in front of an unsigned number that reads back. */
  lemma NegativeParse(s: string, k: nat, e: int, t: string)
    requires |s| > 0 && s[0] == '-' && ParseUnsigned(s[1..]) == Some((k, e, t))
    ensures ParseNumber(s) == Some((Num(0 - k, e), t))
  {
  }

  lemma NumberNonNegative(m: int, e: int, t: string)
    requires m >= 0 && Delimited(t)
    ensures var s := Serialize(Num(m, e)) + t;
            |s| > 0 && IsDigit(s[0]) && ParseNumber(s) == Some((Num(m, e), t))
  {
    var tail := ExponentText(e) + t;
    SerializeNonNegative(m, e, t);
    NatTextShape(m);
    assert IsDigit((NatText(m) + tail)[0]) by {
      assert (NatText(m) + tail)[0] == NatText(m)[0];
    }
    AfterDigits(e, t);
    ExponentRoundTrip(e, t);
    UnsignedRoundTrip(m, tail);
    PlainNumber(NatText(m) + tail);
  }

  lemma NumberRoundTrip(m: int, e: int, t: string)
    requires Delimited(t)
    ensures var s := Serialize(Num(m, e)) + t;
            |s| > 0 && (s[0] == '-' || IsDigit(s[0])) && ParseNumber(s) == Some((Num(m, e), t))
  {
    var s := Serialize(Num(m, e)) + t;
    if m < 0 {
      assert s[0] == '-';
      NumberNegative(m, e, t);
    } else {
      NatTextShape(m);
      assert s[0] == NatText(m)[0];
      NumberNonNegative(m, e, t);
    }
  }

  // Single steps of the parser on text whose first character is known.

  lemma ParseValueArray(s: string)
    requires |s| > 0 && s[0] == '['
    ensures ParseValue(s) == ParseArray(s)
  {
    assert SkipWs(s) == s;
    assert !(s[0] == 'n' || s[0] == 't' || s[0] == 'f' || s[0] == '"');
  }

  lemma ParseValueObject(s: string)
    requires |s| > 0 && s[0] == '{'
    ensures ParseValue(s) == ParseObject(s)
  {
    assert SkipWs(s) == s;
    assert !(s[0] == 'n' || s[0] == 't' || s[0] == 'f' || s[0] == '"' || s[0] == '[');
  }

  lemma ParseValueString(s: string)
    requires |s| > 0 && s[0] == '"'
    ensures ParseValue(s) == ParseQuoted(s)
  {
    assert SkipWs(s) == s;
    assert !(s[0] == 'n' || s[0] == 't' || s[0] == 'f');
  }

  lemma ParseValueNumber(s: string)
    requires |s| > 0 && (s[0] == '-' || IsDigit(s[0]))
    ensures ParseValue(s) == ParseNumber(s)
  {
    assert SkipWs(s) == s;
    assert !(s[0] == 'n' || s[0] == 't' || s[0] == 'f' || s[0] == '"' || s[0] == '[' || s[0] == '{');
  }

  /** One element followed by `]`. */
  lemma ParseElementsLast(s: string, v: Json, rest: string)
    requires ParseValue(s) == Some((v, rest))
    requires |rest| > 0 && rest[0] == ']'
    ensures ParseElements(s) == Some(([v], rest[1..]))
  {
    assert SkipWs(rest) == rest;
  }

  /** One element followed by `,` and more elements. */
  lemma ParseElementsNext(s: string, v: Json, rest: string, vs: seq<Json>, r: string)
    requires ParseValue(s) == Some((v, rest))
    requires |rest| > 0 && rest[0] == ','
    requires ParseElements(rest[1..]) == Some((vs, r))
    ensures ParseElements(s) == Some(([v] + vs, r))
  {
    assert SkipWs(rest) == rest;
    assert rest[0] != ']';
  }

  /** One member followed by `}`. */
  lemma ParseMembersLast(s: string, key: string, afterKey: string, v: Json, rest: string)
    requires |s| > 0 && s[0] == '"'
    requires ParseString(s[1..]) == Some((key, afterKey))
    requires |afterKey| > 0 && afterKey[0] == ':'
    requires ParseValue(afterKey[1..]) == Some((v, rest))
    requires |rest| > 0 && rest[0] == '}'
    ensures ParseMembers(s) == Some(([Member(key, v)], rest[1..]))
  {
    NoLeadingWs(s);
    NoLeadingWs(afterKey);
    NoLeadingWs(rest);
  }

  /** One member followed by `,` and more members. */
  lemma ParseMembersNext(s: string, key: string, afterKey: string, v: Json, rest: string,
                         ms: seq<Member>, r: string)
    requires |s| > 0 && s[0] == '"'
    requires ParseString(s[1..]) == Some((key, afterKey))
    requires |afterKey| > 0 && afterKey[0] == ':'
    requires ParseValue(afterKey[1..]) == Some((v, rest))
    requires |rest| > 0 && rest[0] == ','
    requires ParseMembers(rest[1..]) == Some((ms, r))
    ensures ParseMembers(s) == Some(([Member(key, v)] + ms, r))
  {
    NoLeadingWs(s);
    NoLeadingWs(afterKey);
    NoLeadingWs(rest);
    assert rest[0] != '}';
  }

  lemma {:induction false} ValueRoundTrip(v: Json, t: string)
    requires Delimited(t)
    ensures ParseValue(Serialize(v) + t) == Some((v, t))
    decreases v, 1
  {
    match v
    case Null => LiteralRoundTrip(v, t);
    case Bool(_) => LiteralRoundTrip(v, t);
    case Num(m, e) =>
      NumberRoundTrip(m, e, t);
      ParseValueNumber(Serialize(v) + t);
    case Str(x) => StringValueRoundTrip(x, t);
    case Arr(items) => ArrayValueRoundTrip(items, t);
    case Obj(ms) => ObjectValueRoundTrip(ms, t);
  }

  lemma LiteralRoundTrip(v: Json, t: string)
    requires v.Null? || v.Bool?
    requires Delimited(t)
    ensures ParseValue(Serialize(v) + t) == Some((v, t))
  {
    var s := Serialize(v) + t;
    assert SkipWs(s) == s;
    if v.Null? {
      assert s[..4] == "null" && s[4..] == t;
    } else if v.b {
      assert s[..4] == "true" && s[4..] == t;
    } else {
      assert s[..5] == "false" && s[5..] == t;
    }
  }

  lemma StringValueRoundTrip(x: string, t: string)
    ensures ParseValue(Serialize(Str(x)) + t) == Some((Str(x), t))
  {
    var s := Serialize(Str(x)) + t;
    ParseValueString(s);
    assert s[1..] == Escape(x) + "\"" + t;
    EscapeRoundTrip(x, t);
  }

  lemma {:induction false} ArrayValueRoundTrip(items: seq<Json>, t: string)
    ensures ParseValue(Serialize(Arr(items)) + t) == Some((Arr(items), t))
    decreases Arr(items), 0
  {
    var s := Serialize(Arr(items)) + t;
    ParseValueArray(s);
    assert s == "[" + SerializeItems(items) + "]" + t;
    ArrayRoundTrip(items, t);
  }

  lemma {:induction false} ObjectValueRoundTrip(ms: seq<Member>, t: string)
    ensures ParseValue(Serialize(Obj(ms)) + t) == Some((Obj(ms), t))
    decreases Obj(ms), 0
  {
    var s := Serialize(Obj(ms)) + t;
    ParseValueObject(s);
    assert s == "{" + SerializeMembers(ms) + "}" + t;
    ObjectRoundTrip(ms, t);
  }

  lemma {:induction false} ArrayRoundTrip(items: seq<Json>, t: string)
    ensures ParseArray("[" + SerializeItems(items) + "]" + t) == Some((Arr(items), t))
    decreases items, 1
  {
    var s := "[" + SerializeItems(items) + "]" + t;
    Bracketed("[", SerializeItems(items), "]", t);
    if |items| == 0 {
      assert SerializeItems(items) + "]" + t == "]" + t;
      ArrayEmpty(s, t);
    } else {
      ItemsText(items, t);
      SerializeStart(items[0]);
      ItemsRoundTrip(items, t);
      ArrayOpen(s, Serialize(items[0]), ItemsAfterFirst(items, t));
    }
  }

  lemma {:induction false} ObjectRoundTrip(ms: seq<Member>, t: string)
    ensures ParseObject("{" + SerializeMembers(ms) + "}" + t) == Some((Obj(ms), t))
    decreases ms, 3
  {
    var s := "{" + SerializeMembers(ms) + "}" + t;
    Bracketed("{", SerializeMembers(ms), "}", t);
    if |ms| == 0 {
      assert SerializeMembers(ms) + "}" + t == "}" + t;
      ObjectEmpty(s, t);
    } else {
      MembersText(ms, t);
      MembersRoundTrip(ms, t);
      MemberShape(Quote(ms[0].key), Serialize(ms[0].value), MembersAfterFirst(ms, t));
      ObjectOpen(s, Quote(ms[0].key), ":" + Serialize(ms[0].value) + MembersAfterFirst(ms, t));
    }
  }

  /** The text inside a one-character opening bracket. */
  lemma Bracketed(open: string, body: string, close: string, t: string)
    requires |open| == 1
    ensures (open + body + close + t)[1..] == body + close + t
  {
  }

  lemma NoLeadingWs(s: string)
    requires |s| > 0 && !IsWs(s[0])
    ensures SkipWs(s) == s
  {
  }

  lemma ArrayEmpty(s: string, t: string)
    requires |s| > 0 && s[1..] == "]" + t
    ensures ParseArray(s) == Some((Arr([]), t))
  {
    NoLeadingWs(s[1..]);
  }

  /** An array whose first element's text is `first`. */
  lemma ArrayOpen(s: string, first: string, after: string)
    requires |s| > 0 && |first| > 0 && !IsWs(first[0]) && first[0] != ']'
    requires s[1..] == first + after
    ensures ParseArray(s) == match ParseElements(first + after)
                             case None => None
                             case Some((items, rest)) => Some((Arr(items), rest))
  {
    var u := first + after;
    assert u[0] == first[0];
    NoLeadingWs(u);
  }

  lemma ObjectEmpty(s: string, t: string)
    requires |s| > 0 && s[1..] == "}" + t
    ensures ParseObject(s) == Some((Obj([]), t))
  {
    NoLeadingWs(s[1..]);
  }

  /** An object whose first key's text is `key`. */
  lemma ObjectOpen(s: string, key: string, after: string)
    requires |s| > 0 && |key| > 0 && key[0] == '"'
    requires s[1..] == key + after
    ensures ParseObject(s) == match ParseMembers(key + after)
                              case None => None
                              case Some((ms, rest)) => Some((Obj(ms), rest))
  {
    var u := key + after;
    assert u[0] == '"';
    NoLeadingWs(u);
  }

  /** What follows the first element in the text of a non-empty array. */
  function ItemsAfterFirst(items: seq<Json>, t: string): string
    requires |items| > 0
  {
    if |items| == 1 then "]" + t else "," + (SerializeItems(items[1..]) + "]" + t)
  }

  lemma ItemsText(items: seq<Json>, t: string)
    requires |items| > 0
    ensures SerializeItems(items) + "]" + t == Serialize(items[0]) + ItemsAfterFirst(items, t)
  {
    var first := Serialize(items[0]);
    if |items| == 1 {
      assert SerializeItems(items) == first;
      assert first + "]" + t == first + ("]" + t);
    } else {
      assert SerializeItems(items) == first + "," + SerializeItems(items[1..]);
      Assoc(first + ",", SerializeItems(items[1..]), "]");
      Assoc(first + ",", SerializeItems(items[1..]) + "]", t);
      Assoc(first, ",", SerializeItems(items[1..]) + "]" + t);
    }
  }

  /** What follows the first member's value in the text of a non-empty object. */
  function MembersAfterFirst(ms: seq<Member>, t: string): string
    requires |ms| > 0
  {
    if |ms| == 1 then "}" + t else "," + (SerializeMembers(ms[1..]) + "}" + t)
  }

  lemma MembersTextOne(ms: seq<Member>)
    requires |ms| == 1
    ensures SerializeMembers(ms) == Quote(ms[0].key) + ":" + Serialize(ms[0].value)
  {
  }

  lemma MembersTextMore(ms: seq<Member>)
    requires |ms| > 1
    ensures SerializeMembers(ms)
            == Quote(ms[0].key) + ":" + Serialize(ms[0].value) + "," + SerializeMembers(ms[1..])
  {
  }

  lemma MembersText(ms: seq<Member>, t: string)
    requires |ms| > 0
    ensures SerializeMembers(ms) + "}" + t
            == Quote(ms[0].key) + ":" + Serialize(ms[0].value) + MembersAfterFirst(ms, t)
  {
    var member := Quote(ms[0].key) + ":" + Serialize(ms[0].value);
    if |ms| == 1 {
      MembersTextOne(ms);
      assert member + "}" + t == member + ("}" + t);
    } else {
      MembersTextMore(ms);
      Assoc(member + ",", SerializeMembers(ms[1..]), "}");
      Assoc(member + ",", SerializeMembers(ms[1..]) + "}", t);
      Assoc(member, ",", SerializeMembers(ms[1..]) + "}" + t);
    }
  }

  lemma {:induction false} ItemsRoundTrip(items: seq<Json>, t: string)
    requires |items| > 0
    ensures ParseElements(SerializeItems(items) + "]" + t) == Some((items, t))
    decreases items, 0
  {
    var v := items[0];
    var after := ItemsAfterFirst(items, t);
    ItemsText(items, t);
    ValueRoundTrip(v, after);
    if |items| == 1 {
      ParseElementsLast(Serialize(v) + after, v, after);
      assert after[1..] == t;
      assert [v] == items;
    } else {
      assert after[1..] == SerializeItems(items[1..]) + "]" + t;
      ItemsRoundTrip(items[1..], t);
      ParseElementsNext(Serialize(v) + after, v, after, items[1..], t);
      Rejoin(items);
    }
  }

  /** A quoted key is read back, whatever follows its closing quote. */
  lemma KeyRoundTrip(k: string, afterKey: string)
    ensures var s := Quote(k) + afterKey;
            |s| > 0 && s[0] == '"' && ParseString(s[1..]) == Some((k, afterKey))
  {
    var s := Quote(k) + afterKey;
    assert s[1..] == Escape(k) + "\"" + afterKey;
    EscapeRoundTrip(k, afterKey);
  }

  /** The text of one member, up to what follows its value. */
  lemma {:induction false} MemberRoundTrip(k: string, v: Json, after: string)
    requires Delimited(after)
    ensures var s := Quote(k) + ":" + Serialize(v) + after;
            var afterKey := ":" + Serialize(v) + after;
            && |s| > 0 && s[0] == '"'
            && ParseString(s[1..]) == Some((k, afterKey))
            && ParseValue(afterKey[1..]) == Some((v, after))
    decreases v, 2
  {
    var afterKey := ":" + Serialize(v) + after;
    MemberShape(Quote(k), Serialize(v), after);
    KeyRoundTrip(k, afterKey);
    ValueRoundTrip(v, after);
  }

  /** The text of a member, split after its key. */
  lemma MemberShape(key: string, value: string, after: string)
    ensures key + ":" + value + after == key + (":" + value + after)
    ensures (":" + value + after)[1..] == value + after
  {
  }

  /** The first member of a member list is read back, up to what follows
      its value. */
  lemma {:induction false} FirstMemberRoundTrip(ms: seq<Member>, t: string)
    requires |ms| > 0
    ensures var s := SerializeMembers(ms) + "}" + t;
            var after := MembersAfterFirst(ms, t);
            var afterKey := ":" + Serialize(ms[0].value) + after;
            && |s| > 0 && s[0] == '"'
            && ParseString(s[1..]) == Some((ms[0].key, afterKey))
            && ParseValue(afterKey[1..]) == Some((ms[0].value, after))
    decreases ms, 0
  {
    MembersText(ms, t);
    MemberRoundTrip(ms[0].key, ms[0].value, MembersAfterFirst(ms, t));
  }

  lemma {:induction false} MembersRoundTrip(ms: seq<Member>, t: string)
    requires |ms| > 0
    ensures ParseMembers(SerializeMembers(ms) + "}" + t) == Some((ms, t))
    decreases ms, 2
  {
    if |ms| > 1 { MoreMembersRoundTrip(ms, t); } else { LastMemberRoundTrip(ms, t); }
  }

  /** A single member closed by `}`. */
  lemma {:induction false} LastMemberRoundTrip(ms: seq<Member>, t: string)
    requires |ms| == 1
    ensures ParseMembers(SerializeMembers(ms) + "}" + t) == Some((ms, t))
    decreases ms, 1
  {
    var k, v := ms[0].key, ms[0].value;
    var after := MembersAfterFirst(ms, t);
    FirstMemberRoundTrip(ms, t);
    ParseMembersLast(SerializeMembers(ms) + "}" + t, k, ":" + Serialize(v) + after, v, after);
    assert after[1..] == t;
    assert [Member(k, v)] == ms;
  }

  /** A member followed by `,` and the rest of the list. */
  lemma {:induction false} MoreMembersRoundTrip(ms: seq<Member>, t: string)
    requires |ms| > 1
    ensures ParseMembers(SerializeMembers(ms) + "}" + t) == Some((ms, t))
    decreases ms, 1
  {
    var k, v := ms[0].key, ms[0].value;
    var after := MembersAfterFirst(ms, t);
    FirstMemberRoundTrip(ms, t);
    assert after[1..] == SerializeMembers(ms[1..]) + "}" + t;
    MembersRoundTrip(ms[1..], t);
    ParseMembersNext(SerializeMembers(ms) + "}" + t, k, ":" + Serialize(v) + after, v, after, ms[1..], t);
    Rejoin(ms);
  }

  /** `from_str(to_string(v)) == v` for every value. */
  lemma ParseSerialize(v: Json)
    ensures Parse(Serialize(v)) == Some(v)
  {
    ValueRoundTrip(v, "");
    assert Serialize(v) + "" == Serialize(v);
  }
}

=== FILE: json_text.dfy ===
/** JSON text (RFC 8259): the compact serialisation `serde_json::to_string`
    produces and the parser `serde_json::from_str` applies, with the proof
    that parsing undoes serialising. */
module JsonText {
  import opened Base
  import opened Json
  import opened Decimal

  // ---------------------------------------------------------------------
  // Serialisation

  function HexLower(d: nat): (c: char)
    requires d < 16
  {
    if d < 10 then DigitChar(d) else (d - 10 + 'a' as int) as char
  }

  /** How one character appears inside a JSON string: quote and backslash
      escaped, the five control characters with a short escape written
      short, every other control character as `\u00xx`, the rest as is. */
  function EscapeChar(c: char): (e: string)
    ensures |e| >= 1
  {
    if c == '"' then "\\\""
    else if c == '\\' then "\\\\"
    else if c == '\U{8}' then "\\b"
    else if c == '\t' then "\\t"
    else if c == '\n' then "\\n"
    else if c == '\U{C}' then "\\f"
    else if c == '\r' then "\\r"
    else if c as int < 0x20 then "\\u00" + [HexLower(c as int / 16), HexLower(c as int % 16)]
    else [c]
  }

  function Escape(s: string): string
    decreases |s|
  {
    if |s| == 0 then "" else EscapeChar(s[0]) + Escape(s[1..])
  }

  function Quote(s: string): string {
    "\"" + Escape(s) + "\""
  }

  function IntText(n: int): string {
    if n < 0 then "-" + NatText(-n) else NatText(n)
  }

  /** A zero exponent is left out; any other is written `e<exponent>`. */
  function ExponentText(e: int): string {
    if e == 0 then "" else "e" + IntText(e)
  }

  /** Compact text of a value: no whitespace, members in their listed order. */
  function Serialize(v: Json): string
    decreases v
  {
    match v
    case Null => "null"
    case Bool(b) => if b then "true" else "false"
    case Num(m, e) => IntText(m) + ExponentText(e)
    case Str(s) => Quote(s)
    case Arr(items) => "[" + SerializeItems(items) + "]"
    case Obj(members) => "{" + SerializeMembers(members) + "}"
  }

  function SerializeItems(items: seq<Json>): string
    decreases items
  {
    if |items| == 0 then ""
    else if |items| == 1 then Serialize(items[0])
    else Serialize(items[0]) + "," + SerializeItems(items[1..])
  }

  function SerializeMembers(ms: seq<Member>): string
    decreases ms
  {
    if |ms| == 0 then ""
    else
      var member := Quote(ms[0].key) + ":" + Serialize(ms[0].value);
      if |ms| == 1 then member else member + "," + SerializeMembers(ms[1..])
  }

  // ---------------------------------------------------------------------
  // Parsing

  predicate IsWs(c: char) {
    c == ' ' || c == '\t' || c == '\n' || c == '\r'
  }

  function SkipWs(s: string): (r: string)
    ensures |r| <= |s|
    ensures |r| > 0 ==> !IsWs(r[0])
    decreases |s|
  {
    if |s| > 0 && IsWs(s[0]) then SkipWs(s[1..]) else s
  }

  function Hex4(s: string): (r: Option<nat>)
    requires |s| == 4
    ensures r.Some? ==> r.value < 0x10000
  {
    match (HexValue(s[0]), HexValue(s[1]), HexValue(s[2]), HexValue(s[3]))
    case (Some(a), Some(b), Some(c), Some(d)) => Some(((a * 16 + b) * 16 + c) * 16 + d)
    case _ => None
  }

  /** The character after a backslash; a `\u` escape naming a UTF-16
      surrogate must be a leading surrogate followed by a `\u` trailing one. */
  function ParseEscape(s: string): (r: Option<(char, string)>)
    ensures r.Some? ==> |r.value.1| < |s|
  {
    if |s| == 0 then None
    else if s[0] == '"' then Some(('"', s[1..]))
    else if s[0] == '\\' then Some(('\\', s[1..]))
    else if s[0] == '/' then Some(('/', s[1..]))
    else if s[0] == 'b' then Some(('\U{8}', s[1..]))
    else if s[0] == 'f' then Some(('\U{C}', s[1..]))
    else if s[0] == 'n' then Some(('\n', s[1..]))
    else if s[0] == 'r' then Some(('\r', s[1..]))
    else if s[0] == 't' then Some(('\t', s[1..]))
    else if s[0] == 'u' && |s| >= 5 then
      match Hex4(s[1..5])
      case None => None
      case Some(v) =>
        if 0xDC00 <= v < 0xE000 then None
        else if 0xD800 <= v < 0xDC00 then
          if |s| >= 11 && s[5] == '\\' && s[6] == 'u' then
            match Hex4(s[7..11])
            case Some(w) =>
              if 0xDC00 <= w < 0xE000 then
                Some(((0x10000 + (v - 0xD800) * 0x400 + (w - 0xDC00)) as char, s[11..]))
              else None
            case None => None
          else None
        else Some((v as char, s[5..]))
    else None
  }

  /** A string's contents after its opening quote: the decoded text and
      what follows the closing quote. Raw control characters are refused. */
  function ParseString(s: string): (r: Option<(string, string)>)
    ensures r.Some? ==> |r.value.1| < |s|
    decreases |s|
  {
    if |s| == 0 then None
    else if s[0] == '"' then Some(("", s[1..]))
    else if s[0] == '\\' then
      match ParseEscape(s[1..])
      case None => None
      case Some((c, rest)) =>
        match ParseString(rest)
        case None => None
        case Some((t, r)) => Some(([c] + t, r))
    else if s[0] as int < 0x20 then None
    else
      match ParseString(s[1..])
      case None => None
      case Some((t, r)) => Some(([s[0]] + t, r))
  }

  /** Optional `.digits` part: the fraction digits and the rest. */
  function ParseFraction(b: string): (r: Option<(string, string)>)
    ensures r.Some? ==> AllDigits(r.value.0) && |r.value.1| <= |b|
  {
    if |b| > 0 && b[0] == '.' then
      var m := DigitRun(b[1..]);
      if m == 0 then None else Some((b[1..][..m], b[1..][m..]))
    else Some(("", b))
  }

  /** Optional `e`/`E`, sign and digits: the exponent and the rest. */
  function ParseExponent(c: string): (r: Option<(int, string)>)
    ensures r.Some? ==> |r.value.1| <= |c|
  {
    if |c| > 0 && (c[0] == 'e' || c[0] == 'E') then ParseSignedDigits(c[1..]) else Some((0, c))
  }

  function ParseSignedDigits(d: string): (r: Option<(int, string)>)
    ensures r.Some? ==> |r.value.1| < |d|
  {
    var negative := |d| > 0 && d[0] == '-';
    var signed := |d| > 0 && (d[0] == '-' || d[0] == '+');
    match ParseDigits(if signed then d[1..] else d)
    case None => None
    case Some((x, rest)) => Some((if negative then 0 - x else x, rest))
  }

  /** A non-empty run of digits: its value and the rest. */
  function ParseDigits(d: string): (r: Option<(nat, string)>)
    ensures r.Some? ==> |r.value.1| < |d|
  {
    var m := DigitRun(d);
    if m == 0 then None else Some((DigitsValue(d[..m]), d[m..]))
  }

  lemma AllDigitsConcat(a: string, b: string)
    requires AllDigits(a) && AllDigits(b)
    ensures AllDigits(a + b)
  {
    assert forall i :: 0 <= i < |a + b| ==> (a + b)[i] == if i < |a| then a[i] else b[i - |a|];
  }

  /** Length of an integer part: a lone "0", or a run of digits. */
  function IntegerLength(a: string): (n: nat)
    requires |a| > 0 && IsDigit(a[0])
    ensures 1 <= n <= |a| && AllDigits(a[..n])
  {
    if a[0] == '0' then assert a[..1] == [a[0]]; 1 else DigitRun(a)
  }

  /** An unsigned number: its digits' value, its power of ten and the rest. */
  function ParseUnsigned(a: string): (r: Option<(nat, int, string)>)
    ensures r.Some? ==> |r.value.2| < |a|
  {
    if |a| == 0 || !IsDigit(a[0]) then None
    else
      var n := IntegerLength(a);
      match ParseFraction(a[n..])
      case None => None
      case Some((frac, c)) =>
        match ParseExponent(c)
        case None => None
        case Some((e, rest)) =>
          AllDigitsConcat(a[..n], frac);
          Some((DigitsValue(a[..n] + frac), e - |frac|, rest))
  }

  /** A number: optional minus, an integer part without leading zeros, an
      optional fraction and an optional exponent, read exactly. */
  function ParseNumber(s: string): (r: Option<(Json, string)>)
    requires |s| > 0 && (s[0] == '-' || IsDigit(s[0]))
    ensures r.Some? ==> |r.value.1| < |s|
  {
    if s[0] == '-' then Signed(ParseUnsigned(s[1..]), true) else Signed(ParseUnsigned(s), false)
  }

  /** The number an unsigned reading denotes, negated after a minus sign. */
  function Signed(u: Option<(nat, int, string)>, negative: bool): (r: Option<(Json, string)>)
    ensures r.Some? <==> u.Some?
    ensures r.Some? ==> r.value.1 == u.value.2
  {
    match u
    case None => None
    case Some((magnitude, e, rest)) => Some((Num(if negative then 0 - magnitude else magnitude, e), rest))
  }

  function ParseValue(s: string): (r: Option<(Json, string)>)
    ensures r.Some? ==> |r.value.1| < |s|
    decreases |s|, 1
  {
    var t := SkipWs(s);
    if |t| == 0 then None
    else if t[0] == 'n' then ParseLiteral(t, "null", Null)
    else if t[0] == 't' then ParseLiteral(t, "true", Bool(true))
    else if t[0] == 'f' then ParseLiteral(t, "false", Bool(false))
    else if t[0] == '"' then ParseQuoted(t)
    else if t[0] == '[' then ParseArray(t)
    else if t[0] == '{' then ParseObject(t)
    else if t[0] == '-' || IsDigit(t[0]) then ParseNumber(t)
    else None
  }

  function ParseLiteral(t: string, word: string, v: Json): (r: Option<(Json, string)>)
    requires |word| > 0
    ensures r.Some? ==> |r.value.1| < |t|
  {
    if StartsWith(t, word) then Some((v, t[|word|..])) else None
  }

  /** A string value, starting at its opening quote. */
  function ParseQuoted(t: string): (r: Option<(Json, string)>)
    requires |t| > 0
    ensures r.Some? ==> |r.value.1| < |t|
  {
    match ParseString(t[1..])
    case None => None
    case Some((str, rest)) => Some((Str(str), rest))
  }

  /** An array, starting at its `[`. */
  function ParseArray(t: string): (r: Option<(Json, string)>)
    requires |t| > 0
    ensures r.Some? ==> |r.value.1| < |t|
    decreases |t|, 0
  {
    var u := SkipWs(t[1..]);
    if |u| > 0 && u[0] == ']' then Some((Arr([]), u[1..]))
    else
      match ParseElements(u)
      case None => None
      case Some((items, rest)) => Some((Arr(items), rest))
  }

  /** One or more comma-separated values and the closing `]`. */
  function ParseElements(s: string): (r: Option<(seq<Json>, string)>)
    ensures r.Some? ==> |r.value.1| < |s|
    decreases |s|, 2
  {
    match ParseValue(s)
    case None => None
    case Some((v, rest)) =>
      var t := SkipWs(rest);
      if |t| == 0 then None
      else if t[0] == ']' then Some(([v], t[1..]))
      else if t[0] == ',' then
        match ParseElements(t[1..])
        case None => None
        case Some((vs, r)) => Some(([v] + vs, r))
      else None
  }

  /** An object, starting at its `{`. */
  function ParseObject(s: string): (r: Option<(Json, string)>)
    requires |s| > 0
    ensures r.Some? ==> |r.value.1| < |s|
    decreases |s|, 0
  {
    var t := SkipWs(s[1..]);
    if |t| > 0 && t[0] == '}' then Some((Obj([]), t[1..]))
    else
      match ParseMembers(t)
      case None => None
      case Some((ms, rest)) => Some((Obj(ms), rest))
  }

  /** One or more comma-separated `"key": value` members and the closing `}`. */
  function ParseMembers(s: string): (r: Option<(seq<Member>, string)>)
    ensures r.Some? ==> |r.value.1| < |s|
    decreases |s|, 2
  {
    var t := SkipWs(s);
    if |t| == 0 || t[0] != '"' then None
    else
      match ParseString(t[1..])
      case None => None
      case Some((key, r1)) =>
        var r2 := SkipWs(r1);
        if |r2| == 0 || r2[0] != ':' then None
        else
          match ParseValue(r2[1..])
          case None => None
          case Some((v, r3)) =>
            var r4 := SkipWs(r3);
            if |r4| == 0 then None
            else if r4[0] == '}' then Some(([Member(key, v)], r4[1..]))
            else if r4[0] == ',' then
              match ParseMembers(r4[1..])
              case None => None
              case Some((ms, r5)) => Some(([Member(key, v)] + ms, r5))
            else None
  }

  /** `serde_json::from_str::<Value>`: one value, surrounded by nothing but
      whitespace. */
  function Parse(s: string): Option<Json> {
    match ParseValue(s)
    case None => None
    case Some((v, rest)) => if |SkipWs(rest)| == 0 then Some(v) else None
  }
}

=== FILE: percent.dfy ===
/** The two percent-encoders a request goes through: `urlencoding::encode`
    for the form body (RFC 3986 section 2.1, keeping only the unreserved
    characters of section 2.3) and `form_urlencoded::byte_serialize` for
    the query string (the application/x-www-form-urlencoded serialiser of
    the WHATWG URL standard, which writes a space as `+`). Both work on the
    UTF-8 bytes of their input and write upper-case hexadecimal. */
module Percent {
  import opened Base
  import opened Decimal
  import Utf8

  function HexUpper(d: nat): (c: char)
    requires d < 16
    ensures HexValue(c) == Some(d)
  {
    if d < 10 then DigitChar(d) else (d - 10 + 'A' as int) as char
  }

  /** Unreserved characters of RFC 3986 section 2.3: the only bytes
      `urlencoding::encode` leaves as they are. */
  predicate IsUnreserved(c: char) {
    IsAsciiAlphanumeric(c) || c == '-' || c == '.' || c == '_' || c == '~'
  }

  /** The bytes `form_urlencoded::byte_serialize` leaves as they are. */
  predicate IsFormSafe(c: char) {
    IsAsciiAlphanumeric(c) || c == '*' || c == '-' || c == '.' || c == '_'
  }

  /** `%XX` with upper-case hexadecimal digits. */
  function Escaped(b: byte): (e: string)
    ensures |e| == 3 && e[0] == '%'
    ensures HexValue(e[1]).Some? && HexValue(e[2]).Some?
    ensures HexValue(e[1]).value * 16 + HexValue(e[2]).value == b as int
  {
    ['%', HexUpper(b as int / 16), HexUpper(b as int % 16)]
  }

  // ---------------------------------------------------------------------
  // urlencoding::encode

  function EncodeByte(b: byte): string {
    if b < 128 && IsUnreserved(b as int as char) then [b as int as char] else Escaped(b)
  }

  function EncodeBytes(bs: seq<byte>): string
    decreases |bs|
  {
    if |bs| == 0 then "" else EncodeByte(bs[0]) + EncodeBytes(bs[1..])
  }

  /** Characters an encoded text may contain. */
  predicate IsEncodedChar(c: char) {
    IsUnreserved(c) || c == '%' || ('A' <= c <= 'F')
  }

  /** `urlencoding::encode(s)`: every byte of the UTF-8 form outside the
      unreserved set becomes `%XX`. The result is plain ASCII and never holds
      `&`, `=` or `+`, so it can sit inside a form body as one value. */
  function UrlEncode(s: string): (r: string)
    ensures forall i :: 0 <= i < |r| ==> IsEncodedChar(r[i])
    ensures forall i :: 0 <= i < |r| ==> r[i] != '&' && r[i] != '=' && r[i] != '+'
  {
    EncodeBytesChars(Utf8.Encode(s));
    EncodeBytes(Utf8.Encode(s))
  }

  lemma {:induction false} EncodeBytesChars(bs: seq<byte>)
    ensures forall i :: 0 <= i < |EncodeBytes(bs)| ==> IsEncodedChar(EncodeBytes(bs)[i])
    decreases |bs|
  {
    if |bs| > 0 {
      EncodeBytesChars(bs[1..]);
      var head, tail := EncodeByte(bs[0]), EncodeBytes(bs[1..]);
      assert forall i :: 0 <= i < |head| ==> IsEncodedChar(head[i]);
      assert forall i :: 0 <= i < |head + tail| ==>
        (head + tail)[i] == if i < |head| then head[i] else tail[i - |head|];
    }
  }

  /** Strict percent-decoding: `%` must be followed by two hexadecimal
      digits, and every other character must be ASCII. */
  function PercentDecode(s: string): (r: Option<seq<byte>>)
    decreases |s|
  {
    if |s| == 0 then Some([])
    else if s[0] == '%' then
      if |s| >= 3 && HexValue(s[1]).Some? && HexValue(s[2]).Some? then
        match PercentDecode(s[3..])
        case None => None
        case Some(rest) => Some([(HexValue(s[1]).value * 16 + HexValue(s[2]).value) as byte] + rest)
      else None
    else if s[0] as int < 128 then
      match PercentDecode(s[1..])
      case None => None
      case Some(rest) => Some([s[0] as int as byte] + rest)
    else None
  }

  /** Decoding the encoding of one byte, then of what follows it. */
  lemma DecodeEncodedByte(b: byte, rest: string)
    ensures PercentDecode(EncodeByte(b) + rest) ==
            match PercentDecode(rest)
            case None => None
            case Some(bs) => Some([b] + bs)
  {
    var s := EncodeByte(b) + rest;
    if b < 128 && IsUnreserved(b as int as char) {
      assert s[0] == b as int as char && s[1..] == rest;
    } else {
      assert s[..3] == Escaped(b) && s[3..] == rest;
    }
  }

  /** Percent-decoding undoes the byte encoding. */
  lemma {:induction false} DecodeEncodeBytes(bs: seq<byte>)
    ensures PercentDecode(EncodeBytes(bs)) == Some(bs)
    decreases |bs|
  {
    if |bs| > 0 {
      DecodeEncodedByte(bs[0], EncodeBytes(bs[1..]));
      DecodeEncodeBytes(bs[1..]);
      assert [bs[0]] + bs[1..] == bs;
    }
  }

  /** A receiver's reading of an encoded value: percent-decode, then UTF-8. */
  function UrlDecode(s: string): (r: Option<string>)
    ensures r.Some? ==> PercentDecode(s).Some? && Utf8.Decode(PercentDecode(s).value) == r
  {
    match PercentDecode(s)
    case None => None
    case Some(bs) => Utf8.Decode(bs)
  }

  /** Round trip: decoding `urlencoding::encode(s)` gives back `s`. */
  lemma UrlDecodeEncode(s: string)
    ensures UrlDecode(UrlEncode(s)) == Some(s)
  {
    DecodeEncodeBytes(Utf8.Encode(s));
    Utf8.DecodeEncode(s);
  }

  /** On text made only of unreserved characters the encoder is the identity. */
  lemma UrlEncodeUnreserved(s: string)
    requires forall i :: 0 <= i < |s| ==> IsUnreserved(s[i])
    ensures UrlEncode(s) == s
  {
    UnreservedBytes(s);
  }

  lemma {:induction false} UnreservedBytes(s: string)
    requires forall i :: 0 <= i < |s| ==> IsUnreserved(s[i])
    ensures EncodeBytes(Utf8.Encode(s)) == s
    decreases |s|
  {
    if |s| > 0 {
      assert s[0] as int < 0x80;
      assert Utf8.Encode(s) == [s[0] as int as byte] + Utf8.Encode(s[1..]);
      assert EncodeByte(s[0] as int as byte) == [s[0]];
      UnreservedBytes(s[1..]);
      assert [s[0]] + s[1..] == s;
    }
  }

  // ---------------------------------------------------------------------
  // form_urlencoded::byte_serialize and Serializer::append_pair

  function FormEncodeByte(b: byte): string {
    if b < 128 && IsFormSafe(b as int as char) then [b as int as char]
    else if b == 32 then "+"
    else Escaped(b)
  }

  function FormEncodeBytes(bs: seq<byte>): string
    decreases |bs|
  {
    if |bs| == 0 then "" else FormEncodeByte(bs[0]) + FormEncodeBytes(bs[1..])
  }

  /** `byte_serialize(s.as_bytes())`. */
  function FormEncode(s: string): string {
    FormEncodeBytes(Utf8.Encode(s))
  }

  /** The reading of the form encoding: `+` is a space, `%XX` a byte. */
  function FormDecodeBytes(s: string): (r: Option<seq<byte>>)
    decreases |s|
  {
    if |s| == 0 then Some([])
    else if s[0] == '+' then
      match FormDecodeBytes(s[1..])
      case None => None
      case Some(rest) => Some([32 as byte] + rest)
    else if s[0] == '%' then
      if |s| >= 3 && HexValue(s[1]).Some? && HexValue(s[2]).Some? then
        match FormDecodeBytes(s[3..])
        case None => None
        case Some(rest) => Some([(HexValue(s[1]).value * 16 + HexValue(s[2]).value) as byte] + rest)
      else None
    else if s[0] as int < 128 then
      match FormDecodeBytes(s[1..])
      case None => None
      case Some(rest) => Some([s[0] as int as byte] + rest)
    else None
  }

  lemma FormDecodeEncodedByte(b: byte, rest: string)
    ensures FormDecodeBytes(FormEncodeByte(b) + rest) ==
            match FormDecodeBytes(rest)
            case None => None
            case Some(bs) => Some([b] + bs)
  {
    var s := FormEncodeByte(b) + rest;
    if b < 128 && IsFormSafe(b as int as char) {
      assert s[0] == b as int as char && s[1..] == rest;
    } else if b == 32 {
      assert s[0] == '+' && s[1..] == rest;
    } else {
      assert s[..3] == Escaped(b) && s[3..] == rest;
    }
  }

  lemma {:induction false} FormDecodeEncodeBytes(bs: seq<byte>)
    ensures FormDecodeBytes(FormEncodeBytes(bs)) == Some(bs)
    decreases |bs|
  {
    if |bs| > 0 {
      FormDecodeEncodedByte(bs[0], FormEncodeBytes(bs[1..]));
      FormDecodeEncodeBytes(bs[1..]);
      assert [bs[0]] + bs[1..] == bs;
    }
  }

  function FormDecode(s: string): (r: Option<string>)
    ensures r.Some? ==> FormDecodeBytes(s).Some? && Utf8.Decode(FormDecodeBytes(s).value) == r
  {
    match FormDecodeBytes(s)
    case None => None
    case Some(bs) => Utf8.Decode(bs)
  }

  /** Round trip: the form reading of `byte_serialize(s)` is `s`. */
  lemma FormDecodeEncode(s: string)
    ensures FormDecode(FormEncode(s)) == Some(s)
  {
    FormDecodeEncodeBytes(Utf8.Encode(s));
    Utf8.DecodeEncode(s);
  }

  /** On text made only of form-safe characters the serialiser is the identity. */
  lemma {:induction false} FormEncodeSafe(s: string)
    requires FormSafeText(s)
    ensures FormEncode(s) == s
    decreases |s|
  {
    if |s| > 0 {
      assert s[0] as int < 0x80;
      assert Utf8.Encode(s) == [s[0] as int as byte] + Utf8.Encode(s[1..]);
      assert FormEncodeByte(s[0] as int as byte) == [s[0]];
      FormEncodeSafe(s[1..]);
      assert [s[0]] + s[1..] == s;
    }
  }

  /** `form_urlencoded::Serializer::for_suffix(target, start)` followed by
      `append_pair` for each pair and `finish`: each pair is written
      `key=value` with both halves form-encoded, and is preceded by `&`
      whenever the text is already longer than `start`. The library counts
      that length in UTF-8 bytes and this model in characters; the two
      agree for ASCII targets and for `start` 0, the only start used. */
  function SerializePairs(target: string, start: nat, pairs: seq<(string, string)>): (r: string)
    requires start <= |target|
    ensures |r| >= |target| && r[..|target|] == target
    decreases |pairs|
  {
    if |pairs| == 0 then target
    else
      var sep := if |target| > start then "&" else "";
      var next := target + sep + FormEncode(pairs[0].0) + "=" + FormEncode(pairs[0].1);
      var r := SerializePairs(next, start, pairs[1..]);
      assert next[..|target|] == target;
      assert r[..|target|] == r[..|next|][..|target|];
      r
  }

  /** `Serializer::new(base)` is `for_suffix(base, 0)`: a non-empty `base`
      is taken to hold pairs already, so even the first pair appended is
      preceded by `&`. */
  function FormQuery(base: string, pairs: seq<(string, string)>): string {
    SerializePairs(base, 0, pairs)
  }

  /** Pairs written `key=value` and joined by `&`, with a leading `&` unless
      they are the first of the query. */
  function PairsText(pairs: seq<(string, string)>, first: bool): string
    decreases |pairs|
  {
    if |pairs| == 0 then ""
    else (if first then "" else "&") + pairs[0].0 + "=" + pairs[0].1 + PairsText(pairs[1..], false)
  }

  predicate FormSafeText(s: string) {
    forall i :: 0 <= i < |s| ==> IsFormSafe(s[i])
  }

  predicate SafePairs(pairs: seq<(string, string)>) {
    forall i :: 0 <= i < |pairs| ==> FormSafeText(pairs[i].0) && FormSafeText(pairs[i].1)
  }

  /** When no key or value needs escaping, the serialiser's output is the
      target followed by the pairs joined as `key=value&key=value...`. */
  lemma {:induction false} SerializeVerbatim(target: string, start: nat, pairs: seq<(string, string)>)
    requires start <= |target| && SafePairs(pairs)
    ensures SerializePairs(target, start, pairs) == target + PairsText(pairs, |target| == start)
    decreases |pairs|
  {
    if |pairs| > 0 {
      var sep := if |target| > start then "&" else "";
      var k, v := pairs[0].0, pairs[0].1;
      var next := target + sep + k + "=" + v;
      assert FormSafeText(k) && FormSafeText(v) by {
        assert pairs[0] == (k, v);
      }
      FormEncodeSafe(k);
      FormEncodeSafe(v);
      assert SafePairs(pairs[1..]) by {
        forall i | 0 <= i < |pairs[1..]|
          ensures FormSafeText(pairs[1..][i].0) && FormSafeText(pairs[1..][i].1)
        {
          assert pairs[1..][i] == pairs[i + 1];
        }
      }
      assert SerializePairs(target, start, pairs) == SerializePairs(next, start, pairs[1..]);
      SerializeVerbatim(next, start, pairs[1..]);
      var tail := PairsText(pairs[1..], false);
      assert PairsText(pairs, |target| == start) == sep + k + "=" + v + tail;
      Assoc(target, sep, k);
      Assoc(target, sep + k, "=");
      Assoc(target, sep + k + "=", v);
      Assoc(target, sep + k + "=" + v, tail);
    }
  }
}

=== FILE: request.dfy ===
/** The request one conversational turn sends (`Chatbot::ask`, first half):
    the doubly serialised payload, the percent-encoded form body and the
    query string naming the build label and the request counter. Both the
    current Gemini client and the legacy Bard client build it; they differ
    only in host and build label. */
module Request {
  import opened Base
  import opened Json
  import opened JsonText
  import opened JsonRoundTrip
  import opened Decimal
  import opened Percent

  /** Which client: `src/main.rs` talks to Gemini, `src/gpt_bard.rs` to Bard. */
  datatype Variant = Current | Legacy

  /** The three tokens that tie a turn to the previous reply. */
  datatype Continuity = Continuity(conversationId: string, responseId: string, choiceId: string)

  function Host(v: Variant): string {
    match v
    case Current => "https://gemini.google.com"
    case Legacy => "https://bard.google.com"
  }

  /** The `bl` build label: `boq_assistant-bard-web-server_20240717.08_p5`
      for Gemini and `boq_assistant-bard-web-server_20230507.20_p2` for Bard. */
  function BuildLabel(v: Variant): string {
    LabelStem() + Release(v)
  }

  function LabelStem(): string {
    "boq_assistant-bard-web-server_"
  }

  function Release(v: Variant): string {
    match v
    case Current => "20240717.08_p5"
    case Legacy => "20230507.20_p2"
  }

  function Endpoint(v: Variant): string {
    Host(v) + "/_/BardChatUi/data/assistant.lamda.BardFrontendService/StreamGenerate?"
  }

  /** `[[message], null, [conversation_id, response_id, choice_id]]`. */
  function MessageStruct(message: string, c: Continuity): (j: Json)
    ensures j.Arr? && |j.items| == 3
    ensures At(At(j, 0), 0) == Str(message) && At(j, 1) == Null
    ensures At(At(j, 2), 0) == Str(c.conversationId)
    ensures At(At(j, 2), 1) == Str(c.responseId)
    ensures At(At(j, 2), 2) == Str(c.choiceId)
  {
    Arr([Arr([Str(message)]), Null, Arr([Str(c.conversationId), Str(c.responseId), Str(c.choiceId)])])
  }

  /** `[null, S]` serialised, where `S` is the serialised message struct. */
  function FormData(message: string, c: Continuity): string {
    Serialize(Arr([Null, Str(Serialize(MessageStruct(message, c)))]))
  }

  /** `f.req=<form data>&at=<SNlM0e>&`, both values percent-encoded. */
  function RequestBody(message: string, c: Continuity, snlm0e: string): (body: string)
    ensures StartsWith(body, "f.req=") && body[|body| - 1] == '&'
  {
    "f.req=" + UrlEncode(FormData(message, c)) + "&at=" + UrlEncode(snlm0e) + "&"
  }

  /** The query string: `bl`, `_reqid` and `rt` appended to the endpoint by
      the form serialiser. */
  function RequestUrl(v: Variant, reqid: nat): string {
    FormQuery(Endpoint(v), [("bl", BuildLabel(v)), ("_reqid", NatText(reqid)), ("rt", "c")])
  }

  /** Text that both encoders write unchanged. */
  predicate Verbatim(s: string) {
    forall i :: 0 <= i < |s| ==> IsUnreserved(s[i]) && IsFormSafe(s[i])
  }

  lemma VerbatimConcat(a: string, b: string)
    requires Verbatim(a) && Verbatim(b)
    ensures Verbatim(a + b)
  {
    assert forall i :: 0 <= i < |a + b| ==> (a + b)[i] == if i < |a| then a[i] else b[i - |a|];
  }

  lemma StemVerbatim()
    ensures Verbatim(LabelStem())
  {
  }

  lemma ReleaseVerbatim(v: Variant)
    ensures Verbatim(Release(v))
  {
  }

  /** The build label is written as it is by both encoders. */
  lemma LabelVerbatim(v: Variant)
    ensures Verbatim(BuildLabel(v))
    ensures FormEncode(BuildLabel(v)) == BuildLabel(v) && UrlEncode(BuildLabel(v)) == BuildLabel(v)
  {
    StemVerbatim();
    ReleaseVerbatim(v);
    VerbatimConcat(LabelStem(), Release(v));
    FormEncodeSafe(BuildLabel(v));
    UrlEncodeUnreserved(BuildLabel(v));
  }

  /** The query string, spelled out: the serialiser adds `bl`, `_reqid` and
      `rt` in that order, none of their values needs escaping, and since
      the endpoint is a non-empty target even `bl` follows an `&`, right
      after the `?`. */
  lemma RequestUrlText(v: Variant, reqid: nat)
    ensures RequestUrl(v, reqid)
            == Endpoint(v) + "&bl=" + BuildLabel(v) + "&_reqid=" + NatText(reqid) + "&rt=c"
  {
    var pairs := [("bl", BuildLabel(v)), ("_reqid", NatText(reqid)), ("rt", "c")];
    QueryPairsVerbatim(v, reqid);
    SerializeVerbatim(Endpoint(v), 0, pairs);
    QueryPairsText(BuildLabel(v), NatText(reqid));
    Assoc(Endpoint(v), "&bl=", BuildLabel(v));
    Assoc(Endpoint(v), "&bl=" + BuildLabel(v), "&_reqid=");
    Assoc(Endpoint(v), "&bl=" + BuildLabel(v) + "&_reqid=", NatText(reqid));
    Assoc(Endpoint(v), "&bl=" + BuildLabel(v) + "&_reqid=" + NatText(reqid), "&rt=c");
  }

  lemma QueryPairsVerbatim(v: Variant, reqid: nat)
    ensures SafePairs([("bl", BuildLabel(v)), ("_reqid", NatText(reqid)), ("rt", "c")])
  {
    LabelVerbatim(v);
    NatTextShape(reqid);
    assert FormSafeText(NatText(reqid));
    assert FormSafeText("bl") && FormSafeText("_reqid") && FormSafeText("rt") && FormSafeText("c");
  }

  lemma QueryPairsText(tag: string, digits: string)
    ensures PairsText([("bl", tag), ("_reqid", digits), ("rt", "c")], false)
            == "&bl=" + tag + "&_reqid=" + digits + "&rt=c"
  {
    var pairs := [("bl", tag), ("_reqid", digits), ("rt", "c")];
    assert pairs[1..][1..] == [("rt", "c")];
    assert PairsText(pairs[1..][1..], false) == "&rt=c";
    assert PairsText(pairs[1..], false) == "&_reqid=" + digits + "&rt=c";
  }

  datatype Header = Header(name: string, value: string)

  /** The headers of the POST (the client's cookie and user agent are set
      once at creation and are not part of this model). */
  function RequestHeaders(v: Variant): (hs: seq<Header>)
    ensures |hs| == 3 && hs[1].name == "Origin" && hs[2].name == "Referer"
    ensures hs[0] == Header("Content-Type", "application/x-www-form-urlencoded;charset=UTF-8")
    ensures hs[1].value == Host(v)
    ensures hs[2].value == hs[1].value + "/" && StartsWith(Endpoint(v), hs[1].value)
  {
    [Header("Content-Type", "application/x-www-form-urlencoded;charset=UTF-8"),
     Header("Origin", Host(v)),
     Header("Referer", Host(v) + "/")]
  }

  datatype HttpRequest = HttpRequest(url: string, headers: seq<Header>, body: string)

  /** Everything one turn sends. */
  function TurnRequest(v: Variant, reqid: nat, snlm0e: string, c: Continuity, message: string): (r: HttpRequest)
    ensures r.url == Endpoint(v) + "&bl=" + BuildLabel(v) + "&_reqid=" + NatText(reqid) + "&rt=c"
    ensures ReadTurnRequest(r.body) == Some(Turn(message, c, snlm0e))
    ensures r.headers == RequestHeaders(v)
  {
    RequestUrlText(v, reqid);
    BodyRoundTrip(message, c, snlm0e);
    HttpRequest(RequestUrl(v, reqid), RequestHeaders(v), RequestBody(message, c, snlm0e))
  }

  // ---------------------------------------------------------------------
  // The receiving side: what the server reads back from a request.

  /** What a turn request carries. */
  datatype Turn = Turn(message: string, continuity: Continuity, snlm0e: string)

  /** A `key=value` field with exactly one `=`. */
  function ReadField(field: string): (r: Option<(string, string)>)
    ensures r.Some? ==> field == r.value.0 + "=" + r.value.1
  {
    var kv := Split(field, '=');
    if |kv| == 2 then
      SplitTwo(field, '=');
      Some((kv[0], kv[1]))
    else None
  }

  /** A text that splits into exactly two pieces is those pieces joined. */
  lemma SplitTwo(s: string, sep: char)
    requires |Split(s, sep)| == 2
    ensures s == Split(s, sep)[0] + [sep] + Split(s, sep)[1]
  {
    var i := IndexOf(s, sep);
    assert Split(s, sep) == [s[..i]] + Split(s[i + 1..], sep);
    assert Split(s[i + 1..], sep) == [s[i + 1..]];
    assert s == s[..i] + [sep] + s[i + 1..];
  }

  /** The message struct's fields, when it has exactly the shape built. */
  function ReadMessageStruct(j: Json): (r: Option<(string, Continuity)>)
    ensures r.Some? ==> j == MessageStruct(r.value.0, r.value.1)
  {
    if j.Arr? && |j.items| == 3 && At(j, 1) == Null
       && At(j, 0).Arr? && |At(j, 0).items| == 1 && At(At(j, 0), 0).Str?
       && At(j, 2).Arr? && |At(j, 2).items| == 3
       && At(At(j, 2), 0).Str? && At(At(j, 2), 1).Str? && At(At(j, 2), 2).Str?
    then
      var r := (At(At(j, 0), 0).s, Continuity(At(At(j, 2), 0).s, At(At(j, 2), 1).s, At(At(j, 2), 2).s));
      assert At(j, 0).items == [At(At(j, 0), 0)];
      assert At(j, 2).items == [At(At(j, 2), 0), At(At(j, 2), 1), At(At(j, 2), 2)];
      assert j.items == [At(j, 0), At(j, 1), At(j, 2)];
      Some(r)
    else None
  }

  /** The `f.req` value read back: parsed as `[null, S]`, then `S` parsed as
      the message struct. */
  function ReadFormData(text: string): (r: Option<(string, Continuity)>)
    ensures r.Some? ==> Parse(text).Some?
  {
    match Parse(text)
    case Some(outer) =>
      if outer.Arr? && |outer.items| == 2 && At(outer, 0) == Null && At(outer, 1).Str? then
        match Parse(At(outer, 1).s)
        case Some(j) => ReadMessageStruct(j)
        case None => None
      else None
    case None => None
  }

  /** The server's reading of a request body: two `&`-terminated fields,
      `f.req` and `at`, each percent-decoded. */
  function ReadTurnRequest(body: string): Option<Turn> {
    var fields := Split(body, '&');
    if |fields| == 3 && fields[2] == "" then ReadFields(fields[0], fields[1]) else None
  }

  function ReadFields(first: string, second: string): Option<Turn> {
    match ReadField(first)
    case None => None
    case Some((k1, f)) =>
      match ReadField(second)
      case None => None
      case Some((k2, a)) => if k1 == "f.req" && k2 == "at" then ReadValues(f, a) else None
  }

  function ReadValues(f: string, a: string): Option<Turn> {
    match UrlDecode(f)
    case None => None
    case Some(formData) =>
      match UrlDecode(a)
      case None => None
      case Some(snlm0e) =>
        match ReadFormData(formData)
        case None => None
        case Some((message, c)) => Some(Turn(message, c, snlm0e))
  }

  /** The form data is read back to the message and the tokens it was built from. */
  lemma FormDataRoundTrip(message: string, c: Continuity)
    ensures ReadFormData(FormData(message, c)) == Some((message, c))
  {
    var inner := Serialize(MessageStruct(message, c));
    ParseSerialize(Arr([Null, Str(inner)]));
    ParseSerialize(MessageStruct(message, c));
  }

  /** A body made of two `&`-free fields splits into them and an empty tail. */
  lemma BodyFields(f: string, a: string)
    requires '&' !in f && '&' !in a
    ensures Split("f.req=" + f + "&at=" + a + "&", '&') == ["f.req=" + f, "at=" + a, ""]
  {
    BodyShape(f, a);
    SplitTwoFields("f.req=" + f, "at=" + a, '&');
  }

  lemma BodyShape(f: string, a: string)
    ensures "f.req=" + f + "&at=" + a + "&" == ("f.req=" + f) + ['&'] + ("at=" + a) + ['&']
  {
    assert "&at=" == ['&'] + "at=";
  }

  /** Two separator-free fields, each closed by the separator. */
  lemma SplitTwoFields(x: string, y: string, sep: char)
    requires sep !in x && sep !in y
    ensures Split(x + [sep] + y + [sep], sep) == [x, y, ""]
  {
    SplitLast(y, sep);
    Assoc(x + [sep], y, [sep]);
    SplitCons(x, sep, y + [sep]);
  }

  /** A separator-free piece closed by the separator. */
  lemma SplitLast(y: string, sep: char)
    requires sep !in y
    ensures Split(y + [sep], sep) == [y, ""]
  {
    SplitCons(y, sep, "");
    assert y + [sep] + "" == y + [sep];
  }

  lemma FieldOf(k: string, v: string)
    requires '=' !in k && '=' !in v
    ensures ReadField(k + "=" + v) == Some((k, v))
  {
    SplitCons(k, '=', v);
  }

  /** A well-formed body is read field by field. */
  lemma BodyReads(f: string, a: string)
    requires '&' !in f && '&' !in a && '=' !in f && '=' !in a
    ensures ReadTurnRequest("f.req=" + f + "&at=" + a + "&") == ReadValues(f, a)
  {
    BodyFields(f, a);
    FieldsRead(f, a);
  }

  lemma FieldsRead(f: string, a: string)
    requires '=' !in f && '=' !in a
    ensures ReadFields("f.req=" + f, "at=" + a) == ReadValues(f, a)
  {
    assert "f.req=" + f == "f.req" + "=" + f;
    assert "at=" + a == "at" + "=" + a;
    FieldOf("f.req", f);
    FieldOf("at", a);
  }

  lemma ValuesRoundTrip(message: string, c: Continuity, snlm0e: string)
    ensures ReadValues(UrlEncode(FormData(message, c)), UrlEncode(snlm0e)) == Some(Turn(message, c, snlm0e))
  {
    UrlDecodeEncode(FormData(message, c));
    UrlDecodeEncode(snlm0e);
    FormDataRoundTrip(message, c);
  }

  /** An encoded value never holds the field separators. */
  lemma EncodedHasNoSeparators(s: string)
    ensures '&' !in UrlEncode(s) && '=' !in UrlEncode(s)
  {
  }

  /** Round trip of the whole body: the server recovers the message, the
      three continuity tokens and the `SNlM0e` token unchanged. */
  lemma BodyRoundTrip(message: string, c: Continuity, snlm0e: string)
    ensures ReadTurnRequest(RequestBody(message, c, snlm0e)) == Some(Turn(message, c, snlm0e))
  {
    var f := UrlEncode(FormData(message, c));
    var a := UrlEncode(snlm0e);
    EncodedHasNoSeparators(FormData(message, c));
    EncodedHasNoSeparators(snlm0e);
    assert RequestBody(message, c, snlm0e) == "f.req=" + f + "&at=" + a + "&";
    BodyReads(f, a);
    ValuesRoundTrip(message, c, snlm0e);
  }
}

=== FILE: session.dfy ===
/** The chat session (`Chatbot` in `src/main.rs` and `src/gpt_bard.rs`):
    the request counter, the `SNlM0e` anti-forgery token scraped from the
    start page, and the three continuity tokens that tie one turn to the
    next. A session is created from the start page, advanced by each reply
    and cleared by `reset`. */
module Session {
  import opened Base
  import opened Json
  import opened Request
  import opened Envelope
  import opened Fallback
  import opened Decimal

  datatype Session = Session(reqid: nat, snlm0e: string, continuity: Continuity)

  /** Empty continuity tokens: the state of a new or reset conversation. */
  function NoContinuity(): Continuity {
    Continuity("", "", "")
  }

  // ---------------------------------------------------------------------
  // Creation: `Chatbot::new`.

  /** Why creating a session fails (in the source both are panics). */
  datatype CreateError =
    | Blocked        // the start page mentions `CAPTCHA` (current client only)
    | TokenMissing   // the start page holds no `SNlM0e` token

  /** The literal part of the pattern `SNlM0e":"(.*?)"`. */
  const Marker: string := "SNlM0e\":\""

  /** `q` is where the lazy group started at `k` stops: the first `"` from
      `k` on, with no line break before it (`.` does not match `\n`). */
  predicate Closes(page: string, k: nat, q: nat) {
    k <= q < |page| && page[q] == '"' &&
    forall m :: k <= m < q ==> page[m] != '"' && page[m] != '\n'
  }

  /** The pattern matches at `p` with its group ending at `q`. */
  predicate MatchAt(page: string, p: nat, q: nat) {
    OccursAt(page, Marker, p) && Closes(page, p + |Marker|, q)
  }

  /** Where the group started at `k` closes, if it does. */
  function CloseFrom(page: string, k: nat): (r: Option<nat>)
    requires k <= |page|
    ensures r.Some? ==> Closes(page, k, r.value)
    ensures r.None? ==> forall q :: !Closes(page, k, q)
    decreases |page| - k
  {
    if k == |page| then None
    else if page[k] == '"' then Some(k)
    else if page[k] == '\n' then None
    else
      var r := CloseFrom(page, k + 1);
      assert forall q :: Closes(page, k, q) ==> Closes(page, k + 1, q);
      r
  }

  /** The leftmost match at or after `p`. */
  function FindMatch(page: string, p: nat): (r: Option<(nat, nat)>)
    requires p <= |page|
    ensures r.Some? ==> p <= r.value.0 && MatchAt(page, r.value.0, r.value.1)
    ensures r.Some? ==> forall p', q :: p <= p' < r.value.0 ==> !MatchAt(page, p', q)
    ensures r.None? ==> forall p', q :: p <= p' ==> !MatchAt(page, p', q)
    decreases |page| - p
  {
    if p + |Marker| > |page| then None
    else if OccursAt(page, Marker, p) then
      match CloseFrom(page, p + |Marker|)
      case Some(q) => Some((p, q))
      case None => FindMatch(page, p + 1)
    else FindMatch(page, p + 1)
  }

  /** The captured group of the leftmost match: what `re.captures(&body)`
      yields. */
  function Token(page: string): (t: Option<string>)
    ensures t.Some? <==> exists p: nat, q: nat :: MatchAt(page, p, q)
    ensures t.Some? ==> exists p: nat, q: nat :: MatchAt(page, p, q) && t.value == page[p + |Marker|..q] &&
                                                 forall p': nat, q': nat :: p' < p ==> !MatchAt(page, p', q')
    ensures t.Some? ==> '"' !in t.value && '\n' !in t.value
  {
    match FindMatch(page, 0)
    case Some((p, q)) =>
      Some(page[p + |Marker|..q])
    case None => None
  }

  /** `Chatbot::new`, given the start page and the random request counter
      drawn from `100000..999999`. The current client gives up on a page
      mentioning `CAPTCHA`; the legacy one does not look. */
  function Create(v: Variant, page: string, reqid: nat): (r: Result<Session, CreateError>)
    requires 100000 <= reqid < 999999
    ensures r == Err(Blocked) <==> v.Current? && Contains(page, "CAPTCHA")
    ensures r == Err(TokenMissing) <==> !(v.Current? && Contains(page, "CAPTCHA")) && Token(page).None?
    ensures r.Ok? ==> r.value == Session(reqid, Token(page).value, NoContinuity())
  {
    if v.Current? && Contains(page, "CAPTCHA") then Err(Blocked)
    else
      match Token(page)
      case None => Err(TokenMissing)
      case Some(t) => Ok(Session(reqid, t, NoContinuity()))
  }

  /** A page that starts with the marker, then a token free of quotes and
      line breaks, then a quote, yields exactly that token. */
  lemma TokenOfPage(t: string, rest: string)
    requires '"' !in t && '\n' !in t
    ensures Token(Marker + t + "\"" + rest) == Some(t)
  {
    var page := Marker + t + "\"" + rest;
    var k := |Marker|;
    assert page[..k] == Marker;
    assert OccursAt(page, Marker, 0);
    assert forall m :: k <= m < k + |t| ==> page[m] == t[m - k];
    assert Closes(page, k, k + |t|);
    assert page[k..k + |t|] == t;
    assert FindMatch(page, 0) == Some((0, k + |t|));
  }

  // ---------------------------------------------------------------------
  // One turn: `Chatbot::ask`.

  /** What `ask` needs of the reply not to panic: a fourth line and, when
      that line carries a document, the fields indexed without a check. */
  predicate Answerable(text: string) {
    HasLineThree(text) &&
    (OpenEnvelope(text).Document? ==> Decodable(OpenEnvelope(text).doc))
  }

  /** Why `ask` fails: the inner string is not a JSON array. */
  datatype AskError = MalformedDocument

  /** Commits the continuity tokens only when all three are strings, and
      advances the request counter with them; otherwise nothing changes. */
  function Commit(s: Session, conversation: Option<string>, response: Option<string>, choice: Option<string>): (t: Session)
    ensures t.snlm0e == s.snlm0e
    ensures t.reqid == s.reqid + 100000 <==> conversation.Some? && response.Some? && choice.Some?
    ensures t.reqid != s.reqid + 100000 ==> t == s
    ensures t.reqid == s.reqid + 100000 ==>
              t.continuity == Continuity(conversation.value, response.value, choice.value)
  {
    if conversation.Some? && response.Some? && choice.Some? then
      Session(s.reqid + 100000, s.snlm0e, Continuity(conversation.value, response.value, choice.value))
    else s
  }

  /** The second half of `ask`: decode the reply text and update the
      session. A reply without chat data, or whose chat data is not a
      string, yields an empty map and leaves the session alone. */
  function Receive(v: Variant, s: Session, text: string): (r: Result<(Results, Session), AskError>)
    requires Answerable(text)
    ensures r.Err? <==> OpenEnvelope(text) == InnerInvalid
    ensures r.Ok? ==> r.value.1.snlm0e == s.snlm0e
    ensures r.Ok? ==> r.value.1.reqid == s.reqid || r.value.1.reqid == s.reqid + 100000
    ensures r.Ok? && !OpenEnvelope(text).Document? ==> r.value == (map[], s)
    ensures r.Ok? && OpenEnvelope(text).Document? ==> r.value.0 == Decode(v, OpenEnvelope(text).doc)
  {
    match OpenEnvelope(text)
    case NoChatData => Ok((map[], s))
    case NotString => Ok((map[], s))
    case InnerInvalid => Err(MalformedDocument)
    case Document(doc) =>
      var results := Decode(v, doc);
      Ok((results, Commit(s, Field(results, "conversation_id"), Field(results, "response_id"), ChoiceId(v, doc))))
  }

  /** A whole turn: the request built from the session, and the outcome of
      the reply the server sent to it. */
  function Ask(v: Variant, s: Session, message: string, reply: string): (r: (HttpRequest, Result<(Results, Session), AskError>))
    requires Answerable(reply)
    ensures ReadTurnRequest(r.0.body) == Some(Turn(message, s.continuity, s.snlm0e))
    ensures r.0.url == Endpoint(v) + "&bl=" + BuildLabel(v) + "&_reqid=" + NatText(s.reqid) + "&rt=c"
    ensures r.1 == Receive(v, s, reply)
  {
    (TurnRequest(v, s.reqid, s.snlm0e, s.continuity, message), Receive(v, s, reply))
  }

  /** Current layout, all or nothing: the session moves on exactly when the
      conversation id `doc[1][0]`, the response id `doc[1][1]` and a choice
      id are all strings, and then holds exactly those three. */
  lemma CurrentCommit(s: Session, text: string)
    requires Answerable(text) && OpenEnvelope(text).Document?
    ensures var doc := OpenEnvelope(text).doc;
            var t := Receive(Current, s, text).value.1;
            var committed := At(doc[1], 0).Str? && At(doc[1], 1).Str? && CurrentChoiceId(doc).Some?;
            (t.reqid == s.reqid + 100000 <==> committed) &&
            (committed ==> t.continuity == Continuity(At(doc[1], 0).s, At(doc[1], 1).s, CurrentChoiceId(doc).value)) &&
            (!committed ==> t == s)
  {
    var doc := OpenEnvelope(text).doc;
    var results := CurrentResults(doc);
    assert Field(results, "conversation_id") == AsStr(At(doc[1], 0));
    assert Field(results, "response_id") == AsStr(At(doc[1], 1));
  }

  /** Legacy layout, all or nothing: the choice id is `doc[4][0][0]`. */
  lemma LegacyCommit(s: Session, text: string)
    requires Answerable(text) && OpenEnvelope(text).Document?
    ensures var doc := OpenEnvelope(text).doc;
            var t := Receive(Legacy, s, text).value.1;
            var committed := At(doc[1], 0).Str? && At(doc[1], 1).Str? && At(At(doc[4], 0), 0).Str?;
            (t.reqid == s.reqid + 100000 <==> committed) &&
            (committed ==> t.continuity == Continuity(At(doc[1], 0).s, At(doc[1], 1).s, At(At(doc[4], 0), 0).s)) &&
            (!committed ==> t == s)
  {
    var doc := OpenEnvelope(text).doc;
    var results := LegacyResults(doc);
    assert Field(results, "conversation_id") == AsStr(At(doc[1], 0));
    assert Field(results, "response_id") == AsStr(At(doc[1], 1));
    LegacyPrimaryChoice(doc);
  }

  // ---------------------------------------------------------------------
  // `Chatbot::reset`.

  /** Forgets the conversation; the counter and the token stay. */
  function Reset(s: Session): (t: Session)
    ensures t.continuity == NoContinuity()
    ensures t.reqid == s.reqid && t.snlm0e == s.snlm0e
  {
    s.(continuity := NoContinuity())
  }

  /** A reset session is indistinguishable from a freshly created one with
      the same counter and token. */
  lemma ResetIsFresh(v: Variant, page: string, s: Session)
    requires 100000 <= s.reqid < 999999
    requires !(v.Current? && Contains(page, "CAPTCHA")) && Token(page) == Some(s.snlm0e)
    ensures Create(v, page, s.reqid) == Ok(Reset(s))
  {
  }
}

=== FILE: utf8.dfy ===
/** UTF-8 (RFC 3629): the byte form in which Rust strings reach the
    percent-encoder, and the strict decoder a receiver applies. */
module Utf8 {
  import opened Base

  /** The one to four bytes of a scalar value, shortest form. */
  function EncodeChar(c: char): (bs: seq<byte>)
    ensures 1 <= |bs| <= 4
    ensures |bs| == 1 <==> c as int < 0x80
  {
    var cp := c as int;
    if cp < 0x80 then [cp as byte]
    else if cp < 0x800 then
      [(0xC0 + cp / 64) as byte, (0x80 + cp % 64) as byte]
    else if cp < 0x10000 then
      [(0xE0 + cp / 4096) as byte, (0x80 + cp / 64 % 64) as byte, (0x80 + cp % 64) as byte]
    else
      [(0xF0 + cp / 262144) as byte, (0x80 + cp / 4096 % 64) as byte,
       (0x80 + cp / 64 % 64) as byte, (0x80 + cp % 64) as byte]
  }

  function Encode(s: string): seq<byte>
    decreases |s|
  {
    if |s| == 0 then [] else EncodeChar(s[0]) + Encode(s[1..])
  }

  predicate IsContinuation(b: byte) {
    0x80 <= b < 0xC0
  }

  predicate IsScalar(v: int) {
    (0 <= v < 0xD800) || (0xE000 <= v < 0x11_0000)
  }

  /** Decodes the first scalar value of `bs`, rejecting overlong forms,
      surrogates and values beyond U+10FFFF; gives the value and the number
      of bytes it occupied. */
  function DecodeFirst(bs: seq<byte>): (r: Option<(char, nat)>)
    requires |bs| > 0
    ensures r.Some? ==> 1 <= r.value.1 <= |bs|
  {
    var b0 := bs[0] as int;
    if b0 < 0x80 then Some((b0 as char, 1))
    else if 0xC0 <= b0 < 0xE0 && |bs| >= 2 && IsContinuation(bs[1]) then
      var v := (b0 - 0xC0) * 64 + (bs[1] as int - 0x80);
      if 0x80 <= v then Some((v as char, 2)) else None
    else if 0xE0 <= b0 < 0xF0 && |bs| >= 3 && IsContinuation(bs[1]) && IsContinuation(bs[2]) then
      var v := (b0 - 0xE0) * 4096 + (bs[1] as int - 0x80) * 64 + (bs[2] as int - 0x80);
      if 0x800 <= v && IsScalar(v) then Some((v as char, 3)) else None
    else if 0xF0 <= b0 < 0xF8 && |bs| >= 4 && IsContinuation(bs[1]) && IsContinuation(bs[2])
            && IsContinuation(bs[3]) then
      var v := (b0 - 0xF0) * 262144 + (bs[1] as int - 0x80) * 4096
               + (bs[2] as int - 0x80) * 64 + (bs[3] as int - 0x80);
      if 0x10000 <= v && IsScalar(v) then Some((v as char, 4)) else None
    else None
  }

  function Decode(bs: seq<byte>): Option<string>
    decreases |bs|
  {
    if |bs| == 0 then Some([])
    else match DecodeFirst(bs)
      case None => None
      case Some((c, n)) =>
        match Decode(bs[n..])
        case None => None
        case Some(rest) => Some([c] + rest)
  }

  lemma DecodeTwoBytes(c: char, rest: seq<byte>)
    requires 0x80 <= c as int < 0x800
    ensures DecodeFirst(EncodeChar(c) + rest) == Some((c, 2))
  {
    var cp := c as int;
    assert (cp / 64) * 64 + cp % 64 == cp;
  }

  lemma DecodeThreeBytes(c: char, rest: seq<byte>)
    requires 0x800 <= c as int < 0x10000
    ensures DecodeFirst(EncodeChar(c) + rest) == Some((c, 3))
  {
    var cp := c as int;
    assert (cp / 4096) * 4096 + (cp / 64 % 64) * 64 + cp % 64 == cp by {
      assert cp / 64 == (cp / 4096) * 64 + cp / 64 % 64;
    }
  }

  lemma DecodeFourBytes(c: char, rest: seq<byte>)
    requires 0x10000 <= c as int
    ensures DecodeFirst(EncodeChar(c) + rest) == Some((c, 4))
  {
    var cp := c as int;
    assert (cp / 262144) * 262144 + (cp / 4096 % 64) * 4096 + (cp / 64 % 64) * 64 + cp % 64 == cp by {
      assert cp / 4096 == (cp / 262144) * 64 + cp / 4096 % 64;
      assert cp / 64 == (cp / 4096) * 64 + cp / 64 % 64;
    }
  }

  /** The decoder reads back exactly the bytes of one encoded character. */
  lemma DecodeFirstOfEncoded(c: char, rest: seq<byte>)
    ensures DecodeFirst(EncodeChar(c) + rest) == Some((c, |EncodeChar(c)|))
  {
    var cp := c as int;
    if cp < 0x80 {
    } else if cp < 0x800 {
      DecodeTwoBytes(c, rest);
    } else if cp < 0x10000 {
      DecodeThreeBytes(c, rest);
    } else {
      DecodeFourBytes(c, rest);
    }
  }

  /** Round trip: decoding the UTF-8 form of a string gives the string. */
  lemma {:induction false} DecodeEncode(s: string)
    ensures Decode(Encode(s)) == Some(s)
    decreases |s|
  {
    if |s| > 0 {
      var e := EncodeChar(s[0]);
      DecodeFirstOfEncoded(s[0], Encode(s[1..]));
      assert (e + Encode(s[1..]))[|e|..] == Encode(s[1..]);
      DecodeEncode(s[1..]);
      assert [s[0]] + s[1..] == s;
    }
  }
}
